=== FILE: README.md ===
# Appointment scheduling core of a doctor-booking application

This project models three parts of a doctor-appointment web application and
proves properties of the model.

- **Rescheduling (patient side).** The slot generator (`generateTimeSlots`)
  walks a cursor in 15-minute steps over a doctor's working hours for one
  day. It skips the 12:00-13:00 break. On today's date it starts after "now",
  rounded up to the next quarter hour. It leaves out slots that other
  appointments have booked. The week builder (`getAvailableSlots`) runs the
  generator for today and the six days after, with hours defaulting to
  09:00-17:00. The guards of `handleReschedule` decide whether a request is
  sent. `slotDateFormat` prints a `D_M_YYYY` date key as "D Mon YYYY".
- **All appointments (admin side).** The date, doctor and status filters form
  one pipeline. The date filter compares zero-padded keys. The page also
  builds the doctor select (`doctorList`), resets the filters
  (`handleClearFilters`) and shows each appointment's status, with a fixed
  precedence.
- **Admin controller (server side).** It covers the credential check of
  `loginAdmin` and the outcome of `appointmentCancel`. It covers the
  validation ladders of `addDoctor` and `updateDoctorFee`, and the earnings
  and list shaping of `adminDashboard`. It also covers the image public id
  and outcome of `deleteDoctor`.

## Modelling choices

- A time of day is a whole number of minutes after midnight of the generated
  day. "Now" is a parameter: a date, a minute and the milliseconds into that
  minute.
- The locale time label is a parameter `labelOf(hour, minute)`. Properties
  about label uniqueness assume it is injective.
  `SlotGenerator.EnUsLabel` is a concrete "hh:mm AM" instance, and its
  injectivity is proved.
- Request-body values are the JavaScript values `undefined`, `null`,
  booleans, numbers, strings and objects. Truthiness follows JavaScript.
  `Number()` and `parseInt` follow JavaScript on plain decimal text (see
  "Left out" for what they do not cover). Numbers are reals or NaN.
- Database collections are maps from document id to record. The database
  driver rejects a malformed document id. Whether an id is well formed is the
  parameter `isObjectId`. `validator.isEmail` and `JSON.parse` acceptance are
  parameters too.
- The defining functions `GenerateTimeSlots`, `ApplyFilters`, `DoctorList`,
  `FormatSlotDate`, `StatusDisplay` and `Earnings` carry no contract of their
  own. The lemma rows in the table that cite the same lines state their
  properties.

## Behaviour of the code worth knowing

- The rounding step at `Reschedule.jsx:90` always moves the cursor forward.
  A "now" already on a quarter hour moves a full quarter on: 10:30 becomes
  10:45.
- The hours 09:00-17:00 yield 28 candidates: 12 before the break and 16
  after it.
- The date filter pads the day and month but not the year. A slot year below
  1000 therefore never matches a filter date, which has four year digits.

## Model

| member | source | states |
|---|---|---|
| Calendar.DateKeySplit | frontend/src/pages/Reschedule.jsx:107 | A date key splits on `_` into exactly three pieces: the unpadded day, the 1-based unpadded month and the year |
| Calendar.DateKeyInjective | frontend/src/pages/Reschedule.jsx:155-156 | Two valid dates have the same `D_M_YYYY` key if and only if they are the same date |
| Calendar.ShiftDaysOrdered | frontend/src/pages/Reschedule.jsx:135-137 | For offsets i < j, the day `today + i` comes strictly before, and differs from, `today + j` |
| Calendar.FormatSlotDateOfKey | frontend/src/pages/Reschedule.jsx:24-28 | For any valid date, its key prints as the unpadded day, the month's three-letter abbreviation (indexed by month - 1) and the year |
| Calendar.FormatSlotDateEmpty | frontend/src/pages/Reschedule.jsx:25 | The formatted text is empty if and only if the key is empty |
| Calendar.FormatThreeParts | admin/src/pages/Admin/AllAppointments.jsx:85-93 | A key of three `_`-pieces whose middle piece reads as a month 1..12 prints as "<day> <Mon> <year>", with day and year passed through as written |
| SlotGenerator.ParseClockOfDigits | frontend/src/pages/Reschedule.jsx:68-75 | A working-hours string "H:M" of digit runs sets the cursor to H * 60 + M minutes after midnight |
| SlotGenerator.NoSlotsForInvalidHours | frontend/src/pages/Reschedule.jsx:68-96 | A start or end that does not read as a number gives an invalid date, and the day yields no slots |
| SlotGenerator.NextQuarterAfter | frontend/src/pages/Reschedule.jsx:88-92 | The rounded cursor is strictly after the current minute, at most 15 minutes later, and on a quarter hour |
| SlotGenerator.NextQuarterAfterIsLeast | frontend/src/pages/Reschedule.jsx:90 | No quarter hour lies strictly between the current minute and the rounded cursor |
| SlotGenerator.StartCursor | frontend/src/pages/Reschedule.jsx:82-94 | On another day the walk starts at the opening time. Today it starts at the rounded "now" exactly when the opening time is earlier than "now", to the millisecond; otherwise at the opening time |
| SlotGenerator.LateMorningSkipsToAfterBreak | frontend/src/pages/Reschedule.jsx:85-100 | At 11:50 today with a 09:00 opening, rounding lands on 12:00, inside the break, and the first visited position is exactly 13:00 |
| SlotGenerator.Cursors | frontend/src/pages/Reschedule.jsx:96-100 | Every position the cursor visits is at or after its start, strictly before the end and outside 12:00-13:00 |
| SlotGenerator.CursorsRising | frontend/src/pages/Reschedule.jsx:96-123 | Visited positions are strictly increasing |
| SlotGenerator.CursorEnds | frontend/src/pages/Reschedule.jsx:96-100 | The walk is empty if and only if its first position (13:00 when the start is in the break) is at or past the end. Otherwise it begins there, and one more step after its last position would reach the end |
| SlotGenerator.CursorNext | frontend/src/pages/Reschedule.jsx:96-123 | Each visited position is 15 minutes after the previous one, except that a step landing in the break goes to exactly 13:00 |
| SlotGenerator.CursorMembership | frontend/src/pages/Reschedule.jsx:96-123 | A minute is visited if and only if it lies in [start, end), outside the break, and on the 15-minute grid anchored at the start (at 13:00 once past the break) |
| SlotGenerator.CursorCountAligned | frontend/src/pages/Reschedule.jsx:96-123 | A walk from a quarter hour before the break to an end after it visits (12:00 - start) / 15 positions, plus the ceiling of (end - 13:00) / 15 |
| SlotGenerator.CursorCountAfterBreak | frontend/src/pages/Reschedule.jsx:96-123 | A walk that starts after the break visits the ceiling of (end - start) / 15 positions |
| SlotGenerator.DefaultDayHasTwentyEightCandidates | frontend/src/pages/Reschedule.jsx:96-123 | The hours 09:00-17:00 give 28 candidate positions |
| SlotGenerator.SlotOnItsDay | frontend/src/pages/Reschedule.jsx:107 | A candidate at a minute within the day carries the generated day's date |
| SlotGenerator.CollectIsFiltered | frontend/src/pages/Reschedule.jsx:96-124 | The cursor walk that emits kept candidates produces exactly the kept candidates of the visited positions, in order |
| SlotGenerator.WalkLoop | frontend/src/pages/Reschedule.jsx:96-124 | The `while` loop's output is the kept candidates of the visited positions, in visiting order |
| SlotGenerator.GenerateTimeSlotsLoop | frontend/src/pages/Reschedule.jsx:67-126 | The imperative generator returns the same list as the functional definition |
| SlotGenerator.GeneratedSlots | frontend/src/pages/Reschedule.jsx:109-121 | Every emitted slot is the candidate of a visited position and is available. A visited position's candidate is emitted if and only if it is available |
| SlotGenerator.GeneratedSlotsOrdered | frontend/src/pages/Reschedule.jsx:96-123 | Emitted slots are in strictly increasing time. Each lies between the start cursor and the end, and none is in the break |
| SlotGenerator.GeneratedSlotInWindow | frontend/src/pages/Reschedule.jsx:96-121 | An emitted slot lies in the walk's window, outside the break, is the candidate for its own minute, and is available |
| SlotGenerator.OmittedIffBookedByOthers | frontend/src/pages/Reschedule.jsx:109-113 | A visited candidate is omitted if and only if its label is booked under its date key and it is not the appointment's own slot. The own slot is always kept |
| SlotGenerator.NoSlotsAfterEnd | frontend/src/pages/Reschedule.jsx:85-96 | Today, once "now" is at or past the end of working hours, no slots are offered |
| SlotGenerator.EnUsLabelInjective | frontend/src/pages/Reschedule.jsx:102-105 | The en-US two-digit "hh:mm AM/PM" label gives different texts to different times of day |
| SlotGenerator.SlotLabelsDiffer | frontend/src/pages/Reschedule.jsx:102-107 | With an injective label, two different minutes that fall on the same date carry different labels |
| SlotGenerator.SameDayLabelsDistinct | frontend/src/pages/Reschedule.jsx:102-121 | With an injective label, no two emitted slots of the same date share a label, so a label selects one slot |
| WeekSlots.AvailableSlots | frontend/src/pages/Reschedule.jsx:128-147 | The week holds exactly seven lists, for day offsets 0..6 in order, and empty lists keep their place. What the lists hold is stated by `WeekOffersFreeSlots`, `WeekSlotsOnTheirDay` and `WeekDaysDistinct` |
| WeekSlots.AvailableSlotsLoop | frontend/src/pages/Reschedule.jsx:135-146 | The `for` loop that pushes one list per day builds the same seven lists |
| WeekSlots.WeekOffersFreeSlots | frontend/src/pages/Reschedule.jsx:135-146 | Whatever the working hours, every slot in the week is free for this appointment (not booked, or its own), lies outside the break, and is the candidate for its own minute of its day |
| WeekSlots.UnsetHoursUseDefaults | frontend/src/pages/Reschedule.jsx:141-142 | Unset or empty hours read as 09:00 and 17:00 |
| WeekSlots.LaterDaysStartAtOpening | frontend/src/pages/Reschedule.jsx:135-146 | On every day after today the list is the available candidates of a walk from the opening time, whatever the time of day |
| WeekSlots.NothingBookedKeepsAll | frontend/src/pages/Reschedule.jsx:109-113 | With nothing booked, every candidate is offered |
| WeekSlots.FreeDefaultDay | frontend/src/pages/Reschedule.jsx:135-146 | With unset hours and nothing booked, each later day offers all 28 quarter hours |
| WeekSlots.WeekSlotsOnTheirDay | frontend/src/pages/Reschedule.jsx:135-146 | For working hours within one day, every slot in list i falls on the date i days after today and carries that date's key |
| WeekSlots.WeekDaysDistinct | frontend/src/pages/Reschedule.jsx:135-146 | For working hours within one day, slots in different lists of the week have different date keys |
| Reschedule.HandleReschedule | frontend/src/pages/Reschedule.jsx:149-161 | No selected time gives a warning. A missing or empty day list throws. The current slot is refused. Every other press submits the selected day's key and the selected time |
| Reschedule.NeverSubmitsCurrentSlot | frontend/src/pages/Reschedule.jsx:158-161 | A submitted request never names the appointment's current slot |
| Reschedule.SubmittedKeyIsGenerationKey | frontend/src/pages/Reschedule.jsx:155-156 | For working hours within one day, the submitted date key is the key the generator used for the selected day: the key of the date `slotIndex` days after today |
| Reschedule.SubmittedOfferedSlotIsFree | frontend/src/pages/Reschedule.jsx:149-161 | For working hours within one day, submitting an offered slot requests exactly that slot, and that slot is not booked |
| Reschedule.TimeNotCheckedAgainstDay | frontend/src/pages/Reschedule.jsx:150-161 | For any week, a selected day with a non-empty slot list, and a non-empty time label that no slot of that day carries, the request is submitted with that label, unless the pair is the current slot |
| AllAppointments.ByDateIsFilter | admin/src/pages/Admin/AllAppointments.jsx:113-121 | The date stage throws if and only if some key lacks the parts it pads. Otherwise it is an order-preserving filter by the padded-key test |
| AllAppointments.ByDoctorIsFilter | admin/src/pages/Admin/AllAppointments.jsx:123-125 | The doctor stage keeps, in order, exactly the items with the selected doctor id, or every item for `all` |
| AllAppointments.ByStatusIsFilter | admin/src/pages/Admin/AllAppointments.jsx:126-133 | The status stage keeps, in order, exactly the items the selected status admits |
| AllAppointments.ApplyFiltersIsFilter | admin/src/pages/Admin/AllAppointments.jsx:111-135 | The three stages together throw exactly when the date stage does. Otherwise they form one order-preserving filter by the conjunction of the three tests |
| AllAppointments.ListedExactly | admin/src/pages/Admin/AllAppointments.jsx:111-135 | The shown list is a subsequence of the input, and an appointment is in it if and only if it is in the input and passes all three filters |
| AllAppointments.ClearedListsAll | admin/src/pages/Admin/AllAppointments.jsx:137-141 | After clearing, the shown list is the whole input in order |
| AllAppointments.StatusValues | admin/src/pages/Admin/AllAppointments.jsx:126-133 | `completed` keeps exactly completed items and `cancelled` exactly cancelled ones. `pending` keeps exactly items that are neither, and `all` keeps everything |
| AllAppointments.KeyWithoutSeparatorThrows | admin/src/pages/Admin/AllAppointments.jsx:116-117 | With a date filter set, one slot key without `_` makes the whole filter effect throw |
| AllAppointments.ItemKeyOfDate | admin/src/pages/Admin/AllAppointments.jsx:116-117 | The stored key of a date normalises to the zero-padded day and month and the year |
| AllAppointments.FilterKeyOfIsoDate | admin/src/pages/Admin/AllAppointments.jsx:114-119 | A four-digit-year `YYYY-MM-DD` filter normalises to the same padded form of that date |
| AllAppointments.FilterKeyOfPieces | admin/src/pages/Admin/AllAppointments.jsx:114-119 | A filter `Y-M-D` of digit runs, with month and day of at least two digits, normalises to `D_M_Y` |
| AllAppointments.FlipDate | admin/src/pages/Admin/AllAppointments.jsx:114 | Reversing the `-` pieces and joining them with `_` yields the day, month and year pieces in that order |
| AllAppointments.PaddedDateKeyInjective | admin/src/pages/Admin/AllAppointments.jsx:116-120 | Two dates have the same padded key if and only if they are the same date |
| AllAppointments.DateFilterMatchesSameDay | admin/src/pages/Admin/AllAppointments.jsx:113-121 | An appointment's key matches a four-digit-year filter date if and only if they name the same day (for example `5_7_2024` matches `2024-07-05`) |
| AllAppointments.FirstIndex | admin/src/pages/Admin/AllAppointments.jsx:104-105 | The position found holds the doctor, and no earlier appointment does |
| AllAppointments.DoctorListIds | admin/src/pages/Admin/AllAppointments.jsx:101-109 | The select offers exactly the doctor ids that occur among the appointments |
| AllAppointments.DoctorListDistinct | admin/src/pages/Admin/AllAppointments.jsx:101-109 | No doctor id is offered twice |
| AllAppointments.DoctorListNames | admin/src/pages/Admin/AllAppointments.jsx:104-105 | Each doctor is offered under the name carried by its first appointment |
| AllAppointments.DoctorListOrder | admin/src/pages/Admin/AllAppointments.jsx:101-109 | Doctors are offered in the order of their first appointments |
| AllAppointments.StatusDisplayAgreesWithFilter | admin/src/pages/Admin/AllAppointments.jsx:218-224 | The cancel action appears exactly for items the `pending` filter keeps, and the Cancelled badge exactly for cancelled items. A completed item that is also cancelled shows Cancelled |
| AllAppointments.FormattersAgree | admin/src/pages/Admin/AllAppointments.jsx:85-93 | For the key of a valid date, the `parseInt` formatter of the admin page prints the same text as the `Number` formatter of the reschedule page |
| AdminController.LoginAdmin | backend/controllers/adminController.js:14-29 | A token is issued if and only if both fields are strictly equal to the configured values and signing succeeds. Matching credentials with a failing signature end in the `catch` block. Otherwise the reply is "Invalid credentials" |
| AdminController.LoginReply | backend/controllers/adminController.js:18-28 | A login reply reports success if and only if a token was issued |
| AdminController.LoginWithConfiguredCredentials | backend/controllers/adminController.js:18-22 | When both credentials are configured and signing succeeds, a login succeeds if and only if it sends exactly those two strings |
| AdminController.LoginDoesNotCoerce | backend/controllers/adminController.js:18 | A number or boolean e-mail never logs in, because strict equality does not coerce |
| AdminController.UnsetConfigAcceptsEmptyBody | backend/controllers/adminController.js:16-20 | With neither credential configured, a body without the two fields gets a token, provided signing succeeds |
| AdminController.NoticeDate | backend/controllers/adminController.js:57 | The notice's date has the key's length and no `_` |
| AdminController.NoticeDateRoundTrip | backend/controllers/adminController.js:57 | For a key without `/`, turning `/` back into `_` recovers the key |
| AdminController.AppointmentCancel | backend/controllers/adminController.js:44-87 | A well-formed id always gets "Appointment Cancelled", found or not, and a malformed one gets the caught error. Only the target is marked cancelled. Notices go out exactly when the appointment is found |
| AdminController.CancelIdempotent | backend/controllers/adminController.js:48 | Cancelling the same appointment twice leaves the same records as cancelling once |
| AdminController.CancelNoticesNameTheSlot | backend/controllers/adminController.js:52-72 | A found appointment gets two notices, to the patient and then to the doctor, both naming its slot date and time |
| AdminController.AddDoctor | backend/controllers/adminController.js:90-141 | "Missing Details" comes exactly when a required field is falsy, whatever the e-mail. "Please enter a valid email" comes exactly when all are present and the e-mail is rejected. "Please enter a strong password" comes exactly when, after that, the password is shorter than 8 UTF-16 code units. Otherwise a missing file or bad address fails |
| AdminController.PlanePasswordStrength | backend/controllers/adminController.js:106-108 | For a password made only of Basic Multilingual Plane characters, the strength refusal happens if and only if it has fewer than 8 characters |
| AdminController.AstralPasswordIsLongEnough | backend/controllers/adminController.js:106-108 | A password of four characters outside the Basic Multilingual Plane, such as four emoji, has length 8 and passes the strength check |
| AdminController.AddReply | backend/controllers/adminController.js:96-140 | An add-doctor reply reports success if and only if the doctor is saved |
| AdminController.AddedDoctorIsValid | backend/controllers/adminController.js:118-131 | A saved doctor passed every check and holds exactly the submitted fields and the uploaded file's path |
| AdminController.CaseHistoryOptional | backend/controllers/adminController.js:96 | The case history does not change the outcome, only the saved record's case history |
| AdminController.MissingBeforeInvalid | backend/controllers/adminController.js:96-103 | A missing field is reported before an invalid e-mail |
| AdminController.EarningsLoop | backend/controllers/adminController.js:163-168 | The `forEach` accumulation equals the sum of the amounts of completed or paid appointments |
| AdminController.EarningsIsSumOfEarning | backend/controllers/adminController.js:163-168 | The accumulated earnings equal the sum over the completed-or-paid appointments alone. Other appointments contribute nothing |
| AdminController.EarningsAppend | backend/controllers/adminController.js:163-168 | The earnings of two lists together are the sum of their earnings |
| AdminController.EarningsReverse | backend/controllers/adminController.js:163-175 | Reversing the list does not change the earnings |
| AdminController.EarningsNonNegative | backend/controllers/adminController.js:163-168 | Non-negative amounts give non-negative earnings |
| AdminController.AdminDashboard | backend/controllers/adminController.js:156-184 | The counts are the lengths of the doctor, appointment and user lists. The earnings are the sum over completed or paid appointments. The latest list is the appointments in reverse order |
| AdminController.LatestAppointmentsAgree | backend/controllers/adminController.js:170-176 | The latest list holds the same appointments as the input, and its earnings equal the reported earnings |
| AdminController.PublicId | backend/controllers/adminController.js:193 | The public id contains neither `/` nor `.` |
| AdminController.PublicIdOfUrl | backend/controllers/adminController.js:193 | For a URL ending `/<name>.<extension>`, the public id is `<name>` |
| AdminController.PublicIdWithoutExtension | backend/controllers/adminController.js:193 | For a URL ending `/<name>` with no extension, the public id is `<name>` |
| AdminController.DeleteDoctor | backend/controllers/adminController.js:187-218 | A malformed id gives a 500 and removes nothing. A missing doctor gives a 404 "Doctor not found". An existing doctor is removed, with its image's public id destroyed when it has an image |
| AdminController.DeleteRemovesOnlyTarget | backend/controllers/adminController.js:197-209 | A successful delete removes exactly the target and leaves every other doctor unchanged |
| AdminController.FeeReply | backend/controllers/adminController.js:222-245 | A fee-update reply reports success if and only if the fee was stored |
| AdminController.UpdateDoctorFee | backend/controllers/adminController.js:219-246 | A falsy id or absent fee is refused first, then a NaN or negative fee. After those checks, an id that is not a well-formed document id throws (500), a well-formed id with no doctor gets 404 "Doctor not found.", and an update happens exactly for a well-formed id of an existing doctor, storing `Number(fees)`, which is at least 0. In every other case nothing changes |
| AdminController.ZeroFeeAccepted | backend/controllers/adminController.js:226-232 | A fee of 0, as a number or the string "0", is accepted and stored as 0 |
| AdminController.DigitFeeStored | backend/controllers/adminController.js:232 | A decimal digit string is stored as its numeric value |
| AdminController.BlankFeeStoresZero | backend/controllers/adminController.js:226-232 | An empty string or `null` fee passes validation and is stored as 0, because `Number` reads both as 0 |
| AdminController.NegativeFeeRefused | backend/controllers/adminController.js:226-228 | With a truthy id, any fee whose `Number` value is negative, whether a number such as -0.5 or text, is refused with the store unchanged, whether or not the doctor exists |
| AdminController.NegativeDigitFeeRefused | backend/controllers/adminController.js:226-228 | With a truthy id, a fee sent as text such as "-5" (a minus sign before the digits of a positive number) is refused with the store unchanged |
| AdminController.UpdateChangesOnlyFee | backend/controllers/adminController.js:230-234 | An update keeps every other doctor and the target's name and image |

## Left out

- React rendering, toasts, modals, navigation and loading flags: presentation only.
- `toLocaleTimeString` depends on the host locale. It is the parameter `labelOf`, and the concrete en-US instance covers only the two-digit "hh:mm AM" form.
- SlotGenerator.GenerateTimeSlots: the range of JavaScript dates is not modelled. Working hours so large that `setHours` leaves the date range (an end of "9999999999:00", say) give an invalid date and no slots in JavaScript, but a very long walk here.
- System clock, time zones and daylight saving: "now" is a parameter, and every date is in one time zone with 1440-minute days.
- Network calls and persistence (axios, mongoose `find`, `findById`, `findByIdAndUpdate`, `findByIdAndDelete`, `save`): collections are given lists or maps, and driver failures on ids are the parameter `isObjectId`.
- The content of the jwt token, bcrypt hashing, the cloudinary upload and destroy calls, `validator.isEmail` and `JSON.parse`: foreign libraries. The model keeps only whether they accept, or the value handed to them; a failing upload or destroy is not modelled.
- E-mail sending and templates: `backend/services/emailService.js` and `backend/utils/emailTemplates.js` are not part of this model beyond the recipients, names, date and time handed to them.
- `rescheduleAppointment` in `userController.js`: userController.js is not part of this model.
- `allDoctors` and `appointmentsAdmin`: plain reads with no logic.
- The doctor pages, the add-doctor form and the doctor list screen: form screens around HTTP calls.
- Concurrent double booking: there is no mechanism in the code beyond the client-side filter.
- JsNumbers.ParseInt: reads an optional `+` or `-` sign followed by a leading run of decimal digits. Leading whitespace and the `0x` prefix are not modelled: `parseInt(" 7")` is 7 and `parseInt("0x1A")` is 26 in JavaScript, but NaN and 0 here.
- JsNumbers.StringToNumber: `Number` on a string reads an optional sign, digits and an optional fraction, and an empty string as 0. Whitespace trimming, exponents, hex, `Infinity` and floating-point rounding are not modelled, so amounts and fees are exact reals.
- AdminController.UpdateDoctorFee: arrays and objects are `Obj`, for which `Number` and `isNaN` treat the value as NaN. An array such as `[5]`, which JavaScript reads as 5, is not distinguished. A `doctorId` that is not a string (an object in the JSON body, say) is not modelled; the model gives it the failed-update outcome.
- AdminController.AppointmentCancel: the id is a string. A non-string id in the body is not modelled.
- AdminController.LoginAdmin: a request without a JSON body, which makes the destructuring throw, is not modelled, and neither is the token's content. Whether `jwt.sign` succeeds is the parameter `signs`.
- AllAppointments.DateFilterMatchesSameDay: stated only for filter dates with four-digit years, the usual form of a date input's value.

=== FILE: admin_controller.dfy ===
/**
 The admin controller's decision logic: the credential check of `loginAdmin`,
 the outcome of `appointmentCancel`, the validation ladder of `addDoctor`, the
 figures of `adminDashboard`, the image public id and outcome of
 `deleteDoctor`, and the validation and update of `updateDoctorFee`.

 Collections are maps from document id to record. Whether a string is a
 well-formed document id (the database driver throws on one that is not) is
 the parameter `isObjectId`; `validator.isEmail` and `JSON.parse` success are
 parameters too. Token signing, password hashing, image upload and deletion,
 and e-mail transport are not modelled beyond what the handler decides.
 */
module AdminController {
  import opened Options
  import opened Seqs
  import opened JsStrings
  import opened JsNumbers
  import opened Appointments

  /**
   A handler's JSON reply: an HTTP status with `success` and `message`, or the
   reply of a `catch` block, whose message is the thrown error's own text.
   */
  datatype Reply =
    | Replied(status: int, success: bool, message: string)
    | CaughtError(status: int)

  /** Whether a reply reports success. */
  predicate Succeeded(r: Reply)
  {
    r.Replied? && r.success
  }

  // ---------------------------------------------------------------- loginAdmin

  /** The admin credentials in the server's environment; an unset variable is `None`. */
  datatype AdminConfig = AdminConfig(adminEmail: Option<string>, adminPassword: Option<string>)

  /** The value a body field must hold to be `===` to an environment variable. */
  function EnvValue(c: Option<string>): JsValue
  {
    match c
    case None => Undefined
    case Some(s) => Str(s)
  }

  /** `v === c` for a request-body value and an environment variable (a string or `undefined`). */
  predicate StrictEqualsEnv(v: JsValue, c: Option<string>)
  {
    if c.None? then v.Undefined? else v.Str? && v.s == c.value
  }

  /**
   A login attempt signs a token, replies "Invalid credentials", or fails in
   the token signing, whose error the `catch` block reports.
   */
  datatype LoginOutcome = TokenIssued | Rejected(message: string) | SigningFailed

  /**
   `loginAdmin`: the credentials pass exactly when both fields are strictly
   equal to the configured values; no type coercion, so only the same string
   (or, for an unset variable, an absent field) matches. Whether `jwt.sign`
   succeeds (it throws, for one, without a signing secret) is `signs`.
   */
  function LoginAdmin(email: JsValue, password: JsValue, config: AdminConfig, signs: bool): (o: LoginOutcome)
    ensures o.TokenIssued? <==>
              email == EnvValue(config.adminEmail) && password == EnvValue(config.adminPassword) && signs
    ensures o.SigningFailed? <==>
              email == EnvValue(config.adminEmail) && password == EnvValue(config.adminPassword) && !signs
    ensures o.Rejected? ==> o.message == "Invalid credentials"
  {
    if StrictEqualsEnv(email, config.adminEmail) && StrictEqualsEnv(password, config.adminPassword)
    then (if signs then TokenIssued else SigningFailed)
    else Rejected("Invalid credentials")
  }

  /** The JSON reply for a login outcome. */
  function LoginReply(o: LoginOutcome): (r: Reply)
    ensures Succeeded(r) <==> o.TokenIssued?
  {
    match o
    case TokenIssued => Replied(200, true, "")
    case Rejected(message) => Replied(200, false, message)
    case SigningFailed => CaughtError(200)
  }

  /** With both variables configured, the only accepted body carries exactly those two strings. */
  lemma LoginWithConfiguredCredentials(email: JsValue, password: JsValue, adminEmail: string, adminPassword: string)
    ensures LoginAdmin(email, password, AdminConfig(Some(adminEmail), Some(adminPassword)), true).TokenIssued? <==>
            email == Str(adminEmail) && password == Str(adminPassword)
  {
  }

  /** A number or boolean never passes the check, whatever is configured. */
  lemma LoginDoesNotCoerce(n: JsNumber, b: bool, password: JsValue, config: AdminConfig, signs: bool)
    ensures LoginAdmin(Num(n), password, config, signs) == Rejected("Invalid credentials")
    ensures LoginAdmin(Bool(b), password, config, signs) == Rejected("Invalid credentials")
  {
  }

  /**
   When neither variable is set, a body without the two fields is accepted:
   `undefined === undefined` holds.
   */
  lemma UnsetConfigAcceptsEmptyBody()
    ensures LoginAdmin(Undefined, Undefined, AdminConfig(None, None), true) == TokenIssued
  {
  }

  // ---------------------------------------------------------- appointmentCancel

  /** One cancellation e-mail: the address, the two names the template fills in, and the slot. */
  datatype Notice = Notice(to: string, greeted: string, other: string, date: string, time: string)

  /** The slot date as the e-mails print it: every `_` of the key turned into `/`. */
  function NoticeDate(slotDate: string): (r: string)
    ensures |r| == |slotDate| && '_' !in r
  {
    ReplaceAll(slotDate, '_', '/')
  }

  /** The e-mail to the patient, then the one to the doctor. */
  function CancelNotices(a: Appointment): seq<Notice>
  {
    [Notice(a.userEmail, a.userName, a.docName, NoticeDate(a.slotDate), a.slotTime),
     Notice(a.docEmail, "Dr. " + a.docName, "Patient: " + a.userName, NoticeDate(a.slotDate), a.slotTime)]
  }

  /** What a cancellation leaves behind: the appointments, the e-mails attempted, the reply. */
  datatype CancelResult = CancelResult(appointments: map<string, Appointment>, notices: seq<Notice>, reply: Reply)

  /**
   `appointmentCancel`: a well-formed id sets `cancelled` on the appointment
   it names, if any, and replies success either way; e-mails are attempted
   only when an appointment was found. A malformed id throws before anything
   changes.
   */
  function AppointmentCancel(appointments: map<string, Appointment>, id: string, isObjectId: string -> bool): (r: CancelResult)
    ensures r.reply == (if isObjectId(id) then Replied(200, true, "Appointment Cancelled") else CaughtError(200))
    ensures r.appointments.Keys == appointments.Keys
    ensures forall k :: k in appointments && k != id ==> r.appointments[k] == appointments[k]
    ensures id in appointments ==>
              r.appointments[id] == (if isObjectId(id) then appointments[id].(cancelled := true) else appointments[id])
    ensures |r.notices| > 0 <==> isObjectId(id) && id in appointments
  {
    if !isObjectId(id) then CancelResult(appointments, [], CaughtError(200))
    else if id in appointments then
      var a := appointments[id];
      CancelResult(appointments[id := a.(cancelled := true)], CancelNotices(a), Replied(200, true, "Appointment Cancelled"))
    else CancelResult(appointments, [], Replied(200, true, "Appointment Cancelled"))
  }

  /** Cancelling twice leaves the appointments as cancelling once does. */
  lemma CancelIdempotent(appointments: map<string, Appointment>, id: string, isObjectId: string -> bool)
    ensures var once := AppointmentCancel(appointments, id, isObjectId).appointments;
      AppointmentCancel(once, id, isObjectId).appointments == once
  {
  }

  /**
   Both e-mails of a found appointment go to its patient and its doctor and
   name its slot; the printed date turns back into the key by the reverse
   replacement, since a date key holds no `/`.
   */
  lemma CancelNoticesNameTheSlot(appointments: map<string, Appointment>, id: string, isObjectId: string -> bool)
    requires isObjectId(id) && id in appointments && '/' !in appointments[id].slotDate
    ensures var r := AppointmentCancel(appointments, id, isObjectId);
      var a := appointments[id];
      |r.notices| == 2 && r.notices[0].to == a.userEmail && r.notices[1].to == a.docEmail &&
      forall i :: 0 <= i < 2 ==> ReplaceAll(r.notices[i].date, '/', '_') == a.slotDate && r.notices[i].time == a.slotTime
  {
    NoticeDateRoundTrip(appointments[id].slotDate);
  }

  /** Turning the `/` of a printed date back into `_` recovers a key that held no `/`. */
  lemma NoticeDateRoundTrip(slotDate: string)
    requires '/' !in slotDate
    ensures ReplaceAll(NoticeDate(slotDate), '/', '_') == slotDate
  {
    var r := ReplaceAll(NoticeDate(slotDate), '/', '_');
    forall i | 0 <= i < |slotDate|
      ensures r[i] == slotDate[i]
    {
      assert slotDate[i] != '/';
    }
  }

  // ------------------------------------------------------------------ addDoctor

  /** The multipart form fields of an add-doctor request; a field not sent is `None`. */
  datatype DoctorForm = DoctorForm(
    name: Option<string>,
    email: Option<string>,
    password: Option<string>,
    speciality: Option<string>,
    degree: Option<string>,
    experience: Option<string>,
    about: Option<string>,
    caseHistory: Option<string>,
    fees: Option<string>,
    address: Option<string>)

  /** A form field is truthy when it was sent and is not empty. */
  predicate Present(v: Option<string>)
  {
    v.Some? && v.value != ""
  }

  /** Every field except the case history is truthy. */
  predicate RequiredPresent(f: DoctorForm)
  {
    Present(f.name) && Present(f.email) && Present(f.password) && Present(f.speciality) &&
    Present(f.degree) && Present(f.experience) && Present(f.about) && Present(f.fees) && Present(f.address)
  }

  /** The doctor record the handler saves, before hashing, upload and address parsing. */
  datatype NewDoctor = NewDoctor(
    name: string,
    email: string,
    password: string,
    speciality: string,
    degree: string,
    experience: string,
    about: string,
    caseHistory: Option<string>,
    fees: string,
    address: string,
    imagePath: string)

  /** Why a request that passed the checks still fails: no uploaded file, or an address that is not JSON. */
  datatype AddFailure = NoImageFile | AddressNotJson

  /** How an add-doctor request ends. */
  datatype AddOutcome = Refused(message: string) | Failed(reason: AddFailure) | Added(doctor: NewDoctor)

  /** The JSON reply for an outcome. */
  function AddReply(o: AddOutcome): (r: Reply)
    ensures Succeeded(r) <==> o.Added?
  {
    match o
    case Refused(message) => Replied(200, false, message)
    case Failed(_) => CaughtError(200)
    case Added(_) => Replied(200, true, "Doctor Added")
  }

  /**
   `addDoctor`: first any missing required field, then an e-mail the
   validator rejects, then a password shorter than 8 UTF-16 code units; a request
   that passes all three fails on a missing image file or an address that
   `JSON.parse` rejects, and is saved otherwise.
   */
  function AddDoctor(form: DoctorForm, imagePath: Option<string>, isEmail: string -> bool, isJson: string -> bool): (o: AddOutcome)
    ensures o == Refused("Missing Details") <==> !RequiredPresent(form)
    ensures o == Refused("Please enter a valid email") <==> RequiredPresent(form) && !isEmail(form.email.value)
    ensures o == Refused("Please enter a strong password") <==>
              RequiredPresent(form) && isEmail(form.email.value) && Utf16Length(form.password.value) < 8
    ensures o.Refused? ==> o.message in {"Missing Details", "Please enter a valid email", "Please enter a strong password"}
    ensures o.Failed? <==> RequiredPresent(form) && isEmail(form.email.value) && Utf16Length(form.password.value) >= 8 &&
                           (imagePath.None? || !isJson(form.address.value))
  {
    if !RequiredPresent(form) then Refused("Missing Details")
    else if !isEmail(form.email.value) then Refused("Please enter a valid email")
    else if Utf16Length(form.password.value) < 8 then Refused("Please enter a strong password")
    else if imagePath.None? then Failed(NoImageFile)
    else if !isJson(form.address.value) then Failed(AddressNotJson)
    else Added(NewDoctor(form.name.value, form.email.value, form.password.value, form.speciality.value,
                         form.degree.value, form.experience.value, form.about.value, form.caseHistory,
                         form.fees.value, form.address.value, imagePath.value))
  }

  /** A saved doctor passed every check, and its record holds the form's values and the uploaded file. */
  lemma AddedDoctorIsValid(form: DoctorForm, imagePath: Option<string>, isEmail: string -> bool, isJson: string -> bool)
    requires AddDoctor(form, imagePath, isEmail, isJson).Added?
    ensures RequiredPresent(form) && isEmail(form.email.value) && Utf16Length(form.password.value) >= 8
    ensures imagePath.Some? && isJson(form.address.value)
    ensures var d := AddDoctor(form, imagePath, isEmail, isJson).doctor;
      Some(d.name) == form.name && Some(d.email) == form.email && Some(d.password) == form.password &&
      Some(d.fees) == form.fees && Some(d.address) == form.address && d.caseHistory == form.caseHistory &&
      Some(d.imagePath) == imagePath
  {
  }

  /**
   The case history is optional: changing it never changes which check a
   request fails, and a saved record just carries the new value.
   */
  lemma CaseHistoryOptional(form: DoctorForm, history: Option<string>, imagePath: Option<string>,
                            isEmail: string -> bool, isJson: string -> bool)
    ensures var o := AddDoctor(form, imagePath, isEmail, isJson);
      AddDoctor(form.(caseHistory := history), imagePath, isEmail, isJson) ==
        (if o.Added? then Added(o.doctor.(caseHistory := history)) else o)
  {
  }

  /**
   The strength check counts UTF-16 code units: four characters outside the
   Basic Multilingual Plane (four emoji, say) make eight units and pass it.
   */
  lemma AstralPasswordIsLongEnough(form: DoctorForm, imagePath: Option<string>, isEmail: string -> bool, isJson: string -> bool)
    requires RequiredPresent(form) && isEmail(form.email.value)
    requires |form.password.value| == 4
    requires forall i :: 0 <= i < 4 ==> form.password.value[i] as int >= 0x1_0000
    ensures AddDoctor(form, imagePath, isEmail, isJson) != Refused("Please enter a strong password")
  {
    var p := form.password.value;
    assert p[1..][1..][1..][1..] == [];
    assert Utf16Length(p[1..][1..][1..]) == 2;
    assert Utf16Length(p[1..][1..]) == 4;
    assert Utf16Length(p[1..]) == 6;
    assert Utf16Length(p) == 8;
  }

  /**
   For a password of Basic Multilingual Plane characters the strength check
   counts characters: it is refused exactly when it has fewer than eight.
   */
  lemma PlanePasswordStrength(form: DoctorForm, imagePath: Option<string>, isEmail: string -> bool, isJson: string -> bool)
    requires RequiredPresent(form) && isEmail(form.email.value)
    requires forall i :: 0 <= i < |form.password.value| ==> form.password.value[i] as int < 0x1_0000
    ensures AddDoctor(form, imagePath, isEmail, isJson) == Refused("Please enter a strong password") <==>
            |form.password.value| < 8
  {
    Utf16LengthOfPlane(form.password.value);
  }

  /** The checks come in order: a form missing a field is refused for that, whatever its e-mail and password. */
  lemma MissingBeforeInvalid(form: DoctorForm, imagePath: Option<string>, isEmail: string -> bool, isJson: string -> bool)
    requires !Present(form.about)
    requires form.email.Some? && !isEmail(form.email.value)
    ensures AddDoctor(form, imagePath, isEmail, isJson) == Refused("Missing Details")
  {
  }

  // ------------------------------------------------------------- adminDashboard

  /** An appointment counts towards earnings when it is completed or paid. */
  predicate Earns(a: Appointment)
  {
    a.isCompleted || a.payment
  }

  function AmountOf(a: Appointment): real
  {
    a.amount
  }

  /** The sum of a list of amounts. */
  function Sum(xs: seq<real>): real
  {
    if |xs| == 0 then 0.0 else xs[0] + Sum(xs[1..])
  }

  /** `totalEarnings` after the `forEach` has visited the list in order. */
  function Earnings(xs: seq<Appointment>): real
    decreases |xs|
  {
    if |xs| == 0 then 0.0
    else
      var a := xs[|xs| - 1];
      Earnings(xs[..|xs| - 1]) + (if Earns(a) then a.amount else 0.0)
  }

  /** The loop of `adminDashboard` that adds up earnings. */
  method EarningsLoop(xs: seq<Appointment>) returns (total: real)
    ensures total == Sum(Map(AmountOf, Filter(Earns, xs)))
  {
    total := 0.0;
    var i := 0;
    while i < |xs|
      invariant 0 <= i <= |xs| && total == Earnings(xs[..i])
    {
      var a := xs[i];
      TakeOneMore(xs, i);
      assert xs[..i + 1][..i] == xs[..i];
      if Earns(a) {
        total := total + a.amount;
      }
      i := i + 1;
    }
    TakeAll(xs);
    EarningsIsSumOfEarning(xs);
  }

  /** Earnings are the sum of the amounts of the completed or paid appointments; the others add nothing. */
  lemma {:induction false} EarningsIsSumOfEarning(xs: seq<Appointment>)
    ensures Earnings(xs) == Sum(Map(AmountOf, Filter(Earns, xs)))
    decreases |xs|
  {
    if |xs| > 0 {
      var n := |xs| - 1;
      var p, a := xs[..n], xs[n];
      EarningsIsSumOfEarning(p);
      assert xs == p + [a];
      FilterAppend(Earns, p, [a]);
      var fp, fa := Filter(Earns, p), Filter(Earns, [a]);
      MapAppend(AmountOf, fp, fa);
      SumAppend(Map(AmountOf, fp), Map(AmountOf, fa));
      assert Sum(Map(AmountOf, fa)) == if Earns(a) then a.amount else 0.0;
    }
  }

  lemma {:induction false} SumAppend(a: seq<real>, b: seq<real>)
    ensures Sum(a + b) == Sum(a) + Sum(b)
    decreases |a|
  {
    if |a| > 0 {
      assert (a + b)[1..] == a[1..] + b;
      SumAppend(a[1..], b);
    } else {
      assert a + b == b;
    }
  }

  /** Earnings of two lists one after the other add up. */
  lemma {:induction false} EarningsAppend(xs: seq<Appointment>, ys: seq<Appointment>)
    ensures Earnings(xs + ys) == Earnings(xs) + Earnings(ys)
    decreases |ys|
  {
    if |ys| == 0 {
      assert xs + ys == xs;
    } else {
      var n := |ys| - 1;
      assert (xs + ys)[..|xs + ys| - 1] == xs + ys[..n];
      assert (xs + ys)[|xs + ys| - 1] == ys[n];
      EarningsAppend(xs, ys[..n]);
    }
  }

  /** The order of the list does not change the earnings: reversing it gives the same total. */
  lemma {:induction false} EarningsReverse(xs: seq<Appointment>)
    ensures Earnings(Reverse(xs)) == Earnings(xs)
    decreases |xs|
  {
    if |xs| > 0 {
      var x, t := xs[0], xs[1..];
      EarningsReverse(t);
      var rt := Reverse(t);
      assert Reverse(xs) == rt + [x];
      assert (rt + [x])[..|rt|] == rt;
      EarningsAppend([x], t);
      assert xs == [x] + t;
      assert [x][..0] == [];
    }
  }

  /** With no negative amounts the earnings are not negative. */
  lemma {:induction false} EarningsNonNegative(xs: seq<Appointment>)
    requires forall i :: 0 <= i < |xs| ==> xs[i].amount >= 0.0
    ensures Earnings(xs) >= 0.0
    decreases |xs|
  {
    if |xs| > 0 {
      EarningsNonNegative(xs[..|xs| - 1]);
    }
  }

  /** The figures of the admin dashboard. */
  datatype DashData = DashData(
    doctors: nat,
    appointments: nat,
    patients: nat,
    earnings: real,
    latestAppointments: seq<Appointment>)

  /**
   `adminDashboard`: the three counts are the lengths of the collections,
   earnings add the amounts of the completed or paid appointments, and the
   latest appointments are the list newest first.
   */
  function AdminDashboard<D, U>(doctors: seq<D>, users: seq<U>, appointments: seq<Appointment>): (d: DashData)
    ensures d.doctors == |doctors| && d.appointments == |appointments| && d.patients == |users|
    ensures d.earnings == Sum(Map(AmountOf, Filter(Earns, appointments)))
    ensures |d.latestAppointments| == |appointments|
    ensures forall i :: 0 <= i < |appointments| ==> d.latestAppointments[i] == appointments[|appointments| - 1 - i]
  {
    EarningsIsSumOfEarning(appointments);
    DashData(|doctors|, |appointments|, |users|, Earnings(appointments), Reverse(appointments))
  }

  /**
   The latest list holds the same appointments as the collection, and adding
   up its earnings gives the dashboard's total.
   */
  lemma LatestAppointmentsAgree<D, U>(doctors: seq<D>, users: seq<U>, appointments: seq<Appointment>)
    ensures var d := AdminDashboard(doctors, users, appointments);
      multiset(d.latestAppointments) == multiset(appointments) && Earnings(d.latestAppointments) == d.earnings
  {
    var d := AdminDashboard(doctors, users, appointments);
    EarningsReverse(appointments);
    EarningsIsSumOfEarning(appointments);
    ReverseMultiset(appointments);
  }

  // --------------------------------------------------------------- deleteDoctor

  /** A doctor record as the delete and fee handlers read it. */
  datatype Doctor = Doctor(name: string, image: string, fees: real)

  /** The image's public id: the last `/` piece of the URL, cut at its first `.`. */
  function PublicId(url: string): (id: string)
    ensures '/' !in id && '.' !in id
  {
    var segments := Split(url, '/');
    var last := segments[|segments| - 1];
    SplitPiecesInside(last, '.', '/');
    Split(last, '.')[0]
  }

  /** For an URL ending in `/<name>.<extension>` the public id is the name. */
  lemma PublicIdOfUrl(prefix: string, name: string, extension: string)
    requires '/' !in name && '.' !in name && '/' !in extension
    ensures PublicId(prefix + "/" + name + "." + extension) == name
  {
    var tail := name + "." + extension;
    assert '/' !in tail;
    assert prefix + "/" + name + "." + extension == prefix + ['/'] + tail;
    SplitLast(prefix, '/', tail);
    assert tail == name + ['.'] + extension;
    SplitFirst(name, '.', extension);
  }

  /** For an URL ending in `/<name>` with no extension the public id is the name. */
  lemma PublicIdWithoutExtension(prefix: string, name: string)
    requires '/' !in name && '.' !in name
    ensures PublicId(prefix + "/" + name) == name
  {
    assert prefix + "/" + name == prefix + ['/'] + name;
    SplitLast(prefix, '/', name);
    SplitNoSeparator(name, '.');
  }

  /** What a delete request leaves behind: the doctors, the image destroyed (if any), the reply. */
  datatype DeleteResult = DeleteResult(doctors: map<string, Doctor>, destroyed: Option<string>, reply: Reply)

  /**
   `deleteDoctor`: a found doctor's image (when it has one) is destroyed by
   public id and the doctor removed; an unknown id replies 404 and a
   malformed one 500, with nothing removed.
   */
  function DeleteDoctor(doctors: map<string, Doctor>, id: string, isObjectId: string -> bool): (r: DeleteResult)
    ensures r.doctors == (if isObjectId(id) then doctors - {id} else doctors)
    ensures r.destroyed.Some? <==> isObjectId(id) && id in doctors && doctors[id].image != ""
    ensures r.destroyed.Some? ==> r.destroyed.value == PublicId(doctors[id].image)
    ensures r.reply == (if !isObjectId(id) then CaughtError(500)
                        else if id in doctors then Replied(200, true, "Doctor deleted successfully")
                        else Replied(404, false, "Doctor not found"))
  {
    if !isObjectId(id) then DeleteResult(doctors, None, CaughtError(500))
    else if id !in doctors then DeleteResult(doctors, None, Replied(404, false, "Doctor not found"))
    else
      var destroyed := if doctors[id].image != "" then Some(PublicId(doctors[id].image)) else None;
      DeleteResult(doctors - {id}, destroyed, Replied(200, true, "Doctor deleted successfully"))
  }

  /** A successful delete removes exactly the named doctor and keeps every other one as it was. */
  lemma DeleteRemovesOnlyTarget(doctors: map<string, Doctor>, id: string, isObjectId: string -> bool)
    requires Succeeded(DeleteDoctor(doctors, id, isObjectId).reply)
    ensures var r := DeleteDoctor(doctors, id, isObjectId);
      id in doctors && id !in r.doctors && r.doctors.Keys == doctors.Keys - {id} &&
      forall k :: k in r.doctors ==> r.doctors[k] == doctors[k]
  {
  }

  // ------------------------------------------------------------ updateDoctorFee

  /** How a fee update ends. */
  datatype FeeOutcome =
    | FeeMissing
    | FeeInvalid
    | FeeDoctorNotFound
    | FeeThrew
    | FeeUpdated(fee: real)

  /** The JSON reply for an outcome. */
  function FeeReply(o: FeeOutcome): (r: Reply)
    ensures Succeeded(r) <==> o.FeeUpdated?
  {
    match o
    case FeeMissing => Replied(400, false, "Doctor ID and fee are required.")
    case FeeInvalid => Replied(400, false, "Please enter a valid fee.")
    case FeeDoctorNotFound => Replied(404, false, "Doctor not found.")
    case FeeThrew => CaughtError(500)
    case FeeUpdated(_) => Replied(200, true, "Fee updated successfully.")
  }

  /** `isNaN(fees) || Number(fees) < 0`. */
  predicate BadFee(fees: JsValue)
  {
    IsNaN(fees) || ToNumber(fees).value < 0.0
  }

  /**
   `updateDoctorFee` on the body's `doctorId` and `fees`: a falsy id or an
   absent fee is refused first, then a fee that is not a number or is
   negative; a well-formed id of an existing doctor gets the fee
   `Number(fees)`, and a well-formed id of no doctor is answered "Doctor not
   found.". A string id that is not a well-formed document id makes
   the update throw. A truthy id that is not a string is outside the model,
   which gives it the same outcome.
   */
  function UpdateDoctorFee(doctors: map<string, Doctor>, doctorId: JsValue, fees: JsValue, isObjectId: string -> bool)
    : (r: (map<string, Doctor>, FeeOutcome))
    ensures r.1 == FeeMissing <==> !Truthy(doctorId) || fees.Undefined?
    ensures r.1 == FeeInvalid <==> Truthy(doctorId) && !fees.Undefined? && BadFee(fees)
    ensures r.1.FeeUpdated? <==> Truthy(doctorId) && !fees.Undefined? && !BadFee(fees) &&
                                 doctorId.Str? && isObjectId(doctorId.s) && doctorId.s in doctors
    ensures r.1 == FeeThrew <==> Truthy(doctorId) && !fees.Undefined? && !BadFee(fees) &&
                                 !(doctorId.Str? && isObjectId(doctorId.s))
    ensures r.1 == FeeDoctorNotFound <==> Truthy(doctorId) && !fees.Undefined? && !BadFee(fees) &&
                                          doctorId.Str? && isObjectId(doctorId.s) && doctorId.s !in doctors
    ensures r.1.FeeUpdated? ==> ToNumber(fees) == Finite(r.1.fee) && r.1.fee >= 0.0 &&
                                r.0 == doctors[doctorId.s := doctors[doctorId.s].(fees := r.1.fee)]
    ensures !r.1.FeeUpdated? ==> r.0 == doctors
  {
    if !Truthy(doctorId) || fees.Undefined? then (doctors, FeeMissing)
    else if BadFee(fees) then (doctors, FeeInvalid)
    else if !doctorId.Str? || !isObjectId(doctorId.s) then (doctors, FeeThrew)
    else if doctorId.s !in doctors then (doctors, FeeDoctorNotFound)
    else
      var fee := ToNumber(fees).value;
      (doctors[doctorId.s := doctors[doctorId.s].(fees := fee)], FeeUpdated(fee))
  }

  /** A fee of zero, as a number or as the string "0", is accepted and stored as 0. */
  lemma ZeroFeeAccepted(doctors: map<string, Doctor>, id: string, isObjectId: string -> bool)
    requires id != "" && isObjectId(id) && id in doctors
    ensures UpdateDoctorFee(doctors, Str(id), Num(Finite(0.0)), isObjectId).1 == FeeUpdated(0.0)
    ensures UpdateDoctorFee(doctors, Str(id), Str("0"), isObjectId).1 == FeeUpdated(0.0)
  {
    StringToNumberOfDigits("0");
    assert DigitsValue("0") == 0 by {
      assert "0"[..0] == [];
    }
  }

  /** A fee sent as a string of digits is stored as the number those digits spell. */
  lemma DigitFeeStored(doctors: map<string, Doctor>, id: string, n: nat, isObjectId: string -> bool)
    requires id != "" && isObjectId(id) && id in doctors
    ensures UpdateDoctorFee(doctors, Str(id), Str(NatToString(n)), isObjectId).1 == FeeUpdated(n as real)
  {
    StringToNumberOfNat(n);
  }

  /**
   Only absence is refused as missing: an empty string or `null` reads as
   the number 0 and is stored.
   */
  lemma BlankFeeStoresZero(doctors: map<string, Doctor>, id: string, isObjectId: string -> bool)
    requires id != "" && isObjectId(id) && id in doctors
    ensures UpdateDoctorFee(doctors, Str(id), Str(""), isObjectId).1 == FeeUpdated(0.0)
    ensures UpdateDoctorFee(doctors, Str(id), Null, isObjectId).1 == FeeUpdated(0.0)
  {
  }

  /**
   A fee whose `Number` value is negative, sent as a number or as text, is
   refused before the doctor is looked up, whether or not the doctor exists.
   */
  lemma NegativeFeeRefused(doctors: map<string, Doctor>, doctorId: JsValue, fees: JsValue, isObjectId: string -> bool)
    requires Truthy(doctorId) && !IsNaN(fees) && ToNumber(fees).value < 0.0
    ensures UpdateDoctorFee(doctors, doctorId, fees, isObjectId) == (doctors, FeeInvalid)
  {
  }

  /** A fee sent as a minus sign followed by the digits of a positive number is refused. */
  lemma NegativeDigitFeeRefused(doctors: map<string, Doctor>, doctorId: JsValue, n: nat, isObjectId: string -> bool)
    requires Truthy(doctorId) && n > 0
    ensures UpdateDoctorFee(doctors, doctorId, Str("-" + NatToString(n)), isObjectId) == (doctors, FeeInvalid)
  {
    var digits := NatToString(n);
    StringToNumberOfNat(n);
    assert ("-" + digits)[1..] == digits;
    assert StringToNumber("-" + digits) == Finite(-(n as real));
    NegativeFeeRefused(doctors, doctorId, Str("-" + digits), isObjectId);
  }

  /** An update changes only the fee of the named doctor. */
  lemma UpdateChangesOnlyFee(doctors: map<string, Doctor>, doctorId: JsValue, fees: JsValue, isObjectId: string -> bool)
    requires UpdateDoctorFee(doctors, doctorId, fees, isObjectId).1.FeeUpdated?
    ensures var r := UpdateDoctorFee(doctors, doctorId, fees, isObjectId).0;
      r.Keys == doctors.Keys &&
      (forall k :: k in doctors && k != doctorId.s ==> r[k] == doctors[k]) &&
      r[doctorId.s].name == doctors[doctorId.s].name && r[doctorId.s].image == doctors[doctorId.s].image
  {
  }
}

=== FILE: all_appointments.dfy ===
/**
 The admin's appointment list page: the filter effect (date, doctor, status),
 clearing the filters, the doctor choices offered by the doctor select, the
 status column, and the slot date formatter.
 */
module AllAppointments {
  import opened Options
  import opened Seqs
  import opened JsStrings
  import opened JsNumbers
  import opened Calendar
  import opened Appointments

  /** The page's three filter controls: the date input's value, the doctor select and the status select. */
  datatype FilterState = FilterState(date: string, doctor: string, status: string)

  /** The select value that switches a filter off. */
  const All := "all"

  /** `handleClearFilters`; it is also the page's initial state. */
  function ClearFilters(): FilterState
  {
    FilterState("", All, All)
  }

  /**
   `${p[0].padStart(2, '0')}_${p[1].padStart(2, '0')}_${p[2]}` over the pieces
   of a split date: `None` when the second piece is missing (calling
   `padStart` on `undefined` throws); a missing third piece prints "undefined".
   */
  function PaddedKey(parts: seq<string>): Option<string>
  {
    if |parts| < 2 then None
    else Some(PadStart(parts[0], 2, '0') + "_" + PadStart(parts[1], 2, '0') + "_" + PartOrUndefined(parts, 2))
  }

  /** The appointment side of the date comparison: its `D_M_YYYY` key with day and month padded. */
  function ItemDateKey(slotDate: string): Option<string>
  {
    PaddedKey(Split(slotDate, '_'))
  }

  /**
   The filter side: the date input's `YYYY-MM-DD` turned around into
   `DD_MM_YYYY`, split again on '_' and padded the same way.
   */
  function FilterDateKey(filterDate: string): Option<string>
  {
    PaddedKey(Split(Join(Reverse(Split(filterDate, '-')), '_'), '_'))
  }

  /** The date filter's callback for one appointment: the appointment side is built first; either side may throw. */
  function DateMatch(slotDate: string, filterDate: string): Option<bool>
  {
    match ItemDateKey(slotDate)
    case None => None
    case Some(itemDate) =>
      match FilterDateKey(filterDate)
      case None => None
      case Some(formattedFilter) => Some(itemDate == formattedFilter)
  }

  /** The status filter's callback; a status value it does not know keeps everything. */
  predicate StatusKeeps(status: string, a: Appointment)
  {
    if status == "completed" then a.isCompleted
    else if status == "cancelled" then a.cancelled
    else if status == "pending" then !a.isCompleted && !a.cancelled
    else true
  }

  /** The date filter's callback as a value. */
  function DateCallback(date: string): Appointment -> Option<bool>
  {
    (a: Appointment) => DateMatch(a.slotDate, date)
  }

  /** The doctor filter's callback as a value. */
  function DoctorTest(doctor: string): Appointment -> bool
  {
    a => DoctorOk(doctor, a)
  }

  /** The status filter's callback as a value. */
  function StatusTest(status: string): Appointment -> bool
  {
    a => StatusKeeps(status, a)
  }

  function ByDate(xs: seq<Appointment>, date: string): Option<seq<Appointment>>
  {
    if date != "" then TryFilter(DateCallback(date), xs) else Some(xs)
  }

  function ByDoctor(xs: seq<Appointment>, doctor: string): seq<Appointment>
  {
    if doctor != All then Filter(DoctorTest(doctor), xs) else xs
  }

  function ByStatus(xs: seq<Appointment>, status: string): seq<Appointment>
  {
    if status != All then Filter(StatusTest(status), xs) else xs
  }

  /** The filter effect: date, then doctor, then status; `None` when the date filter throws. */
  function ApplyFilters(xs: seq<Appointment>, f: FilterState): Option<seq<Appointment>>
  {
    match ByDate(xs, f.date)
    case None => None
    case Some(d) => Some(ByStatus(ByDoctor(d, f.doctor), f.status))
  }

  /** The date condition on its own: no date set, or the padded keys agree. */
  predicate DateOk(date: string, a: Appointment)
  {
    date == "" || DateMatch(a.slotDate, date) == Some(true)
  }

  predicate DoctorOk(doctor: string, a: Appointment)
  {
    doctor == All || a.docId == doctor
  }

  /** The reference condition for an appointment to be listed under the filters `f`. */
  predicate Listed(f: FilterState, a: Appointment)
  {
    DateOk(f.date, a) && DoctorOk(f.doctor, a) && StatusKeeps(f.status, a)
  }

  function DateTest(date: string): Appointment -> bool
  {
    a => DateOk(date, a)
  }

  function ListedTest(f: FilterState): Appointment -> bool
  {
    a => Listed(f, a)
  }

  /** The effect throws when a date is set and the callback throws on some appointment. */
  predicate DateFilterThrows(xs: seq<Appointment>, date: string)
  {
    date != "" && exists i :: 0 <= i < |xs| && DateMatch(xs[i].slotDate, date).None?
  }

  lemma ByDateIsFilter(xs: seq<Appointment>, date: string)
    ensures ByDate(xs, date).None? <==> DateFilterThrows(xs, date)
    ensures ByDate(xs, date).Some? ==> ByDate(xs, date) == Some(Filter(DateTest(date), xs))
  {
    if date == "" {
      FilterAll(DateTest(date), xs);
    } else if !DateFilterThrows(xs, date) {
      forall i | 0 <= i < |xs|
        ensures DateCallback(date)(xs[i]) == Some(DateTest(date)(xs[i]))
      {
        assert DateMatch(xs[i].slotDate, date).Some?;
      }
      TryFilterAsFilter(DateCallback(date), DateTest(date), xs);
    }
  }

  lemma ByDoctorIsFilter(xs: seq<Appointment>, doctor: string)
    ensures ByDoctor(xs, doctor) == Filter(DoctorTest(doctor), xs)
  {
    if doctor == All {
      FilterAll(DoctorTest(doctor), xs);
    }
  }

  lemma ByStatusIsFilter(xs: seq<Appointment>, status: string)
    ensures ByStatus(xs, status) == Filter(StatusTest(status), xs)
  {
    if status == All {
      FilterAll(StatusTest(status), xs);
    }
  }

  /**
   The pipeline throws exactly when the date filter throws, and otherwise
   lists the appointments satisfying all three conditions, in their order.
   */
  lemma ApplyFiltersIsFilter(xs: seq<Appointment>, f: FilterState)
    ensures ApplyFilters(xs, f).None? <==> DateFilterThrows(xs, f.date)
    ensures ApplyFilters(xs, f).Some? ==> ApplyFilters(xs, f) == Some(Filter(ListedTest(f), xs))
  {
    ByDateIsFilter(xs, f.date);
    if !DateFilterThrows(xs, f.date) {
      var d := Filter(DateTest(f.date), xs);
      ByDoctorIsFilter(d, f.doctor);
      ByStatusIsFilter(Filter(DoctorTest(f.doctor), d), f.status);
      FilterCompose3(DateTest(f.date), DoctorTest(f.doctor), StatusTest(f.status), ListedTest(f), xs);
    }
  }

  /**
   Filtering never reorders or invents appointments, and an appointment is
   listed exactly when it satisfies the three conditions.
   */
  lemma ListedExactly(xs: seq<Appointment>, f: FilterState, r: seq<Appointment>)
    requires ApplyFilters(xs, f) == Some(r)
    ensures IsSubsequence(r, xs)
    ensures forall a :: a in r <==> a in xs && Listed(f, a)
  {
    ApplyFiltersIsFilter(xs, f);
    FilterMembers(ListedTest(f), xs);
  }

  /** With the filters cleared (the initial state) every appointment is listed, in order. */
  lemma ClearedListsAll(xs: seq<Appointment>)
    ensures ApplyFilters(xs, ClearFilters()) == Some(xs)
  {
  }

  /** The status select's three values pick exactly the completed, the cancelled, and the remaining appointments. */
  lemma StatusValues(a: Appointment)
    ensures Listed(FilterState("", All, "completed"), a) <==> a.isCompleted
    ensures Listed(FilterState("", All, "cancelled"), a) <==> a.cancelled
    ensures Listed(FilterState("", All, "pending"), a) <==> !a.isCompleted && !a.cancelled
    ensures Listed(FilterState("", All, All), a)
  {
  }

  /**
   An appointment whose key has no '_' makes the date filter throw whatever
   date is chosen.
   */
  lemma KeyWithoutSeparatorThrows(xs: seq<Appointment>, f: FilterState, i: int)
    requires 0 <= i < |xs| && '_' !in xs[i].slotDate && f.date != ""
    ensures ApplyFilters(xs, f) == None
  {
    assert ItemDateKey(xs[i].slotDate) == None;
    ApplyFiltersIsFilter(xs, f);
  }

  /** The key both sides of the date comparison build for a date: day and month padded to two digits. */
  function PaddedDateKey(d: Date): string
    requires Valid(d) && d.year >= 0
  {
    PadStart(NatToString(d.day), 2, '0') + "_" + PadStart(NatToString(d.month), 2, '0') + "_" + NatToString(d.year)
  }

  /** The padded appointment-side key of a key built from a date. */
  lemma ItemKeyOfDate(e: Date)
    requires Valid(e) && e.year >= 0
    ensures ItemDateKey(DateKey(e)) == Some(PaddedDateKey(e))
  {
    DateKeySplit(e);
    assert IntToString(e.year) == NatToString(e.year);
  }

  /** The filter-side key of the value a date input holds. */
  lemma FilterKeyOfIsoDate(d: Date)
    requires Valid(d) && 1000 <= d.year <= 9999
    ensures FilterDateKey(IsoDate(d)) == Some(PaddedDateKey(d))
  {
    var y := PadStart(NatToString(d.year), 4, '0');
    var m := PadStart(NatToString(d.month), 2, '0');
    var dd := PadStart(NatToString(d.day), 2, '0');
    NatToStringLength(d.year);
    assert y == NatToString(d.year);
    PaddedValue(d.month);
    PaddedValue(d.day);
    FilterKeyOfPieces(y, m, dd);
  }

  /** A date value of digit pieces, month and day at least two long, keys as day, month, year. */
  lemma FilterKeyOfPieces(y: string, m: string, dd: string)
    requires AllDigits(y) && AllDigits(m) && AllDigits(dd) && |m| >= 2 && |dd| >= 2
    ensures FilterDateKey(y + "-" + m + "-" + dd) == Some(dd + "_" + m + "_" + y)
  {
    DigitsHaveNo(y, '-');
    DigitsHaveNo(m, '-');
    DigitsHaveNo(dd, '-');
    DigitsHaveNo(y, '_');
    DigitsHaveNo(m, '_');
    DigitsHaveNo(dd, '_');
    FlipDate(y, m, dd);
    assert PaddedKey([dd, m, y]) == Some(dd + "_" + m + "_" + y);
  }

  /** `YYYY-MM-DD` split on '-', reversed, joined and split on '_' gives the pieces day first. */
  lemma FlipDate(y: string, m: string, dd: string)
    requires '-' !in y && '-' !in m && '-' !in dd && '_' !in y && '_' !in m && '_' !in dd
    ensures Split(Join(Reverse(Split(y + "-" + m + "-" + dd, '-')), '_'), '_') == [dd, m, y]
  {
    SplitThree(y, m, dd, '-');
    ReverseThree(y, m, dd);
    JoinThree(dd, m, y, '_');
    SplitThree(dd, m, y, '_');
  }

  /** Keys of three '_'-free pieces are equal only piece by piece. */
  lemma KeyPiecesEqual(a1: string, b1: string, c1: string, a2: string, b2: string, c2: string)
    requires '_' !in a1 && '_' !in b1 && '_' !in c1 && '_' !in a2 && '_' !in b2 && '_' !in c2
    requires a1 + "_" + b1 + "_" + c1 == a2 + "_" + b2 + "_" + c2
    ensures a1 == a2 && b1 == b2 && c1 == c2
  {
    SplitThree(a1, b1, c1, '_');
    SplitThree(a2, b2, c2, '_');
  }

  /**
   The date filter keeps an appointment held on date `e` exactly when the date
   input shows `e`: "5_7_2024" matches "2024-07-05". Years are those a date
   input writes with four digits.
   */
  lemma DateFilterMatchesSameDay(e: Date, d: Date)
    requires Valid(e) && e.year >= 0
    requires Valid(d) && 1000 <= d.year <= 9999
    ensures DateMatch(DateKey(e), IsoDate(d)) == Some(e == d)
  {
    ItemKeyOfDate(e);
    FilterKeyOfIsoDate(d);
    PaddedDateKeyInjective(e, d);
  }

  /** Padded keys of two dates agree exactly when the dates do. */
  lemma PaddedDateKeyInjective(e: Date, d: Date)
    requires Valid(e) && e.year >= 0 && Valid(d) && d.year >= 0
    ensures PaddedDateKey(e) == PaddedDateKey(d) <==> e == d
  {
    var de, me := PadStart(NatToString(e.day), 2, '0'), PadStart(NatToString(e.month), 2, '0');
    var dd, md := PadStart(NatToString(d.day), 2, '0'), PadStart(NatToString(d.month), 2, '0');
    if PaddedDateKey(e) == PaddedDateKey(d) {
      PaddedValue(e.day);
      PaddedValue(e.month);
      PaddedValue(d.day);
      PaddedValue(d.month);
      DigitsHaveNo(de, '_');
      DigitsHaveNo(me, '_');
      DigitsHaveNo(dd, '_');
      DigitsHaveNo(md, '_');
      DigitsHaveNo(NatToString(e.year), '_');
      DigitsHaveNo(NatToString(d.year), '_');
      KeyPiecesEqual(de, me, NatToString(e.year), dd, md, NatToString(d.year));
      PaddedInjective(e.day, d.day);
      PaddedInjective(e.month, d.month);
      NatToStringInjective(e.year, d.year);
    }
  }

  /** One choice of the doctor select: an id and the name shown for it. */
  datatype DoctorChoice = DoctorChoice(id: string, name: string)

  function Ids(choices: seq<DoctorChoice>): set<string>
  {
    set c | c in choices :: c.id
  }

  function DocIds(xs: seq<Appointment>): set<string>
  {
    set a | a in xs :: a.docId
  }

  /**
   The `doctorList` memo: a `Map` from doctor id to name filled in list order,
   where an id already present keeps its first name; read back in insertion
   order.
   */
  function DoctorList(xs: seq<Appointment>): seq<DoctorChoice>
    decreases |xs|
  {
    if |xs| == 0 then []
    else
      var seen := DoctorList(xs[..|xs| - 1]);
      var a := xs[|xs| - 1];
      if a.docId in Ids(seen) then seen else seen + [DoctorChoice(a.docId, a.docName)]
  }

  /** The position of the first appointment with doctor `id`. */
  function FirstIndex(xs: seq<Appointment>, id: string): (k: nat)
    requires id in DocIds(xs)
    ensures k < |xs| && xs[k].docId == id
    ensures forall j :: 0 <= j < k ==> xs[j].docId != id
    decreases |xs|
  {
    if xs[0].docId == id then 0
    else
      assert id in DocIds(xs[1..]) by {
        var a :| a in xs && a.docId == id;
        var i :| 0 <= i < |xs| && xs[i] == a;
        assert xs[1..][i - 1] == a;
      }
      1 + FirstIndex(xs[1..], id)
  }

  /** Extending the list after a doctor's first appearance does not move it. */
  lemma FirstIndexPrefix(xs: seq<Appointment>, n: nat, id: string)
    requires n <= |xs| && id in DocIds(xs[..n])
    ensures id in DocIds(xs) && FirstIndex(xs, id) == FirstIndex(xs[..n], id)
  {
    var p := xs[..n];
    var k := FirstIndex(p, id);
    assert xs[k] == p[k];
    assert id in DocIds(xs) by { assert xs[k] in xs; }
  }

  lemma DocIdsSnoc(p: seq<Appointment>, a: Appointment)
    ensures DocIds(p + [a]) == DocIds(p) + {a.docId}
  {
    assert forall x :: x in p + [a] <==> x in p || x == a;
  }

  lemma IdsSnoc(seen: seq<DoctorChoice>, c: DoctorChoice)
    ensures Ids(seen + [c]) == Ids(seen) + {c.id}
  {
    assert forall x :: x in seen + [c] <==> x in seen || x == c;
  }

  /** The doctor select offers exactly the doctors that appear in the list. */
  lemma {:induction false} DoctorListIds(xs: seq<Appointment>)
    ensures Ids(DoctorList(xs)) == DocIds(xs)
    decreases |xs|
  {
    if |xs| > 0 {
      var n := |xs| - 1;
      var p, a := xs[..n], xs[n];
      DoctorListIds(p);
      assert xs == p + [a];
      DocIdsSnoc(p, a);
      IdsSnoc(DoctorList(p), DoctorChoice(a.docId, a.docName));
    }
  }

  /** No doctor is offered twice. */
  lemma {:induction false} DoctorListDistinct(xs: seq<Appointment>)
    ensures forall i, j :: 0 <= i < j < |DoctorList(xs)| ==> DoctorList(xs)[i].id != DoctorList(xs)[j].id
    decreases |xs|
  {
    if |xs| > 0 {
      var n := |xs| - 1;
      var p, a := xs[..n], xs[n];
      var seen := DoctorList(p);
      DoctorListDistinct(p);
      if a.docId !in Ids(seen) {
        var r := seen + [DoctorChoice(a.docId, a.docName)];
        forall i, j | 0 <= i < j < |r|
          ensures r[i].id != r[j].id
        {
          assert r[i] == seen[i] && seen[i] in seen;
          if j < |seen| {
            assert r[j] == seen[j];
          }
        }
      }
    }
  }

  /** Every offered doctor appears in the list, and an appearance of a doctor already seen keeps its position. */
  lemma SeenStaysFirst(xs: seq<Appointment>, n: nat)
    requires n < |xs|
    ensures forall i :: 0 <= i < |DoctorList(xs[..n])| ==>
              DoctorList(xs[..n])[i].id in DocIds(xs[..n]) && DoctorList(xs[..n])[i].id in DocIds(xs) &&
              FirstIndex(xs, DoctorList(xs[..n])[i].id) == FirstIndex(xs[..n], DoctorList(xs[..n])[i].id) < n
  {
    var seen := DoctorList(xs[..n]);
    DoctorListIds(xs[..n]);
    forall i | 0 <= i < |seen|
      ensures seen[i].id in DocIds(xs[..n]) && seen[i].id in DocIds(xs)
      ensures FirstIndex(xs, seen[i].id) == FirstIndex(xs[..n], seen[i].id) < n
    {
      assert seen[i] in seen;
      FirstIndexPrefix(xs, n, seen[i].id);
    }
  }

  /** A doctor not yet offered before position `n` appears first at `n`. */
  lemma NewDoctorFirstAt(xs: seq<Appointment>, n: nat)
    requires n < |xs| && xs[n].docId !in Ids(DoctorList(xs[..n]))
    ensures xs[n].docId in DocIds(xs) && FirstIndex(xs, xs[n].docId) == n
  {
    DoctorListIds(xs[..n]);
    assert xs[n] in xs;
  }

  /** Each choice of `r` names a doctor of `xs` under the name of that doctor's first appointment. */
  predicate NamedByFirst(xs: seq<Appointment>, r: seq<DoctorChoice>)
  {
    forall i :: 0 <= i < |r| ==> r[i].id in DocIds(xs) && r[i].name == xs[FirstIndex(xs, r[i].id)].docName
  }

  /** Each doctor is offered under the name its first appointment carries. */
  lemma {:induction false} DoctorListNames(xs: seq<Appointment>)
    ensures NamedByFirst(xs, DoctorList(xs))
    decreases |xs|
  {
    if |xs| > 0 {
      var n := |xs| - 1;
      var p, a := xs[..n], xs[n];
      var seen := DoctorList(p);
      DoctorListNames(p);
      NamesSurviveExtension(xs, n);
      if a.docId !in Ids(seen) {
        NamesAcceptNewDoctor(xs, n);
      }
    }
  }

  /** Appending to the list keeps the names of the doctors offered so far. */
  lemma NamesSurviveExtension(xs: seq<Appointment>, n: nat)
    requires n < |xs| && NamedByFirst(xs[..n], DoctorList(xs[..n]))
    ensures NamedByFirst(xs, DoctorList(xs[..n]))
  {
    var seen := DoctorList(xs[..n]);
    SeenStaysFirst(xs, n);
    forall i | 0 <= i < |seen|
      ensures seen[i].id in DocIds(xs) && seen[i].name == xs[FirstIndex(xs, seen[i].id)].docName
    {
      assert xs[FirstIndex(xs, seen[i].id)] == xs[..n][FirstIndex(xs[..n], seen[i].id)];
    }
  }

  /** A doctor first seen at position `n` is offered under the name it has there. */
  lemma NamesAcceptNewDoctor(xs: seq<Appointment>, n: nat)
    requires n < |xs| && xs[n].docId !in Ids(DoctorList(xs[..n]))
    requires NamedByFirst(xs, DoctorList(xs[..n]))
    ensures NamedByFirst(xs, DoctorList(xs[..n]) + [DoctorChoice(xs[n].docId, xs[n].docName)])
  {
    var seen := DoctorList(xs[..n]);
    var r := seen + [DoctorChoice(xs[n].docId, xs[n].docName)];
    NewDoctorFirstAt(xs, n);
    forall i | 0 <= i < |r|
      ensures r[i].id in DocIds(xs) && r[i].name == xs[FirstIndex(xs, r[i].id)].docName
    {
      if i < |seen| {
        assert r[i] == seen[i];
      }
    }
  }

  /** The choices `r` come in order of their doctors' first appointments in `xs`. */
  predicate OrderedByFirst(xs: seq<Appointment>, r: seq<DoctorChoice>)
  {
    forall i, j :: 0 <= i < j < |r| ==>
      r[i].id in DocIds(xs) && r[j].id in DocIds(xs) && FirstIndex(xs, r[i].id) < FirstIndex(xs, r[j].id)
  }

  /** The doctors come in order of their first appointment. */
  lemma {:induction false} DoctorListOrder(xs: seq<Appointment>)
    ensures OrderedByFirst(xs, DoctorList(xs))
    decreases |xs|
  {
    if |xs| > 0 {
      var n := |xs| - 1;
      var p, a := xs[..n], xs[n];
      var seen := DoctorList(p);
      DoctorListOrder(p);
      OrderSurvivesExtension(xs, n);
      if a.docId !in Ids(seen) {
        OrderAcceptsNewDoctor(xs, n);
      }
    }
  }

  /** Appending to the list keeps the order of the doctors offered so far. */
  lemma OrderSurvivesExtension(xs: seq<Appointment>, n: nat)
    requires n < |xs| && OrderedByFirst(xs[..n], DoctorList(xs[..n]))
    ensures OrderedByFirst(xs, DoctorList(xs[..n]))
  {
    var seen := DoctorList(xs[..n]);
    SeenStaysFirst(xs, n);
    forall i, j | 0 <= i < j < |seen|
      ensures seen[i].id in DocIds(xs) && seen[j].id in DocIds(xs) &&
              FirstIndex(xs, seen[i].id) < FirstIndex(xs, seen[j].id)
    {
      assert FirstIndex(xs[..n], seen[i].id) < FirstIndex(xs[..n], seen[j].id);
    }
  }

  /** A doctor first seen at position `n` goes after every doctor seen before it. */
  lemma OrderAcceptsNewDoctor(xs: seq<Appointment>, n: nat)
    requires n < |xs| && xs[n].docId !in Ids(DoctorList(xs[..n]))
    requires OrderedByFirst(xs, DoctorList(xs[..n]))
    ensures OrderedByFirst(xs, DoctorList(xs[..n]) + [DoctorChoice(xs[n].docId, xs[n].docName)])
  {
    var seen := DoctorList(xs[..n]);
    var r := seen + [DoctorChoice(xs[n].docId, xs[n].docName)];
    SeenStaysFirst(xs, n);
    NewDoctorFirstAt(xs, n);
    forall i, j | 0 <= i < j < |r|
      ensures r[i].id in DocIds(xs) && r[j].id in DocIds(xs) &&
              FirstIndex(xs, r[i].id) < FirstIndex(xs, r[j].id)
    {
      assert r[i] == seen[i];
      if j < |seen| {
        assert r[j] == seen[j];
      }
    }
  }

  /** How the status column shows an appointment. */
  datatype StatusView = CancelledBadge | CompletedBadge | CancelButton

  /** The status column: the Cancelled badge wins over the Completed badge; otherwise the cancel button. */
  function StatusDisplay(a: Appointment): StatusView
  {
    if a.cancelled then CancelledBadge
    else if a.isCompleted then CompletedBadge
    else CancelButton
  }

  /**
   The cancel button is offered exactly on the appointments the "pending"
   status lists; a badge always agrees with the status filter of its name,
   though an appointment both cancelled and completed shows only the
   Cancelled badge.
   */
  lemma StatusDisplayAgreesWithFilter(a: Appointment)
    ensures StatusDisplay(a) == CancelButton <==> StatusKeeps("pending", a)
    ensures StatusDisplay(a) == CancelledBadge <==> StatusKeeps("cancelled", a)
    ensures StatusDisplay(a) == CompletedBadge ==> StatusKeeps("completed", a)
    ensures StatusKeeps("completed", a) ==> StatusDisplay(a) == CompletedBadge || StatusDisplay(a) == CancelledBadge
  {
  }

  /** For keys built from dates, this page's formatter (`parseInt`) prints what the reschedule page's (`Number`) prints. */
  lemma FormattersAgree(d: Date)
    requires Valid(d)
    ensures FormatSlotDate(DateKey(d), ByParseInt) == FormatSlotDate(DateKey(d), ByNumber)
  {
    FormatSlotDateOfKey(d, ByParseInt);
    FormatSlotDateOfKey(d, ByNumber);
  }
}

=== FILE: appointments.dfy ===
/**
 An appointment record as the admin pages and the admin controller read it:
 the doctor and patient denormalised into it (`docData`, `userData`), the slot
 it holds as a `D_M_YYYY` date key and a time label, the fee, and three flags.
 */
module Appointments {

  datatype Appointment = Appointment(
    id: string,
    docId: string,
    docName: string,
    docEmail: string,
    userName: string,
    userEmail: string,
    slotDate: string,
    slotTime: string,
    amount: real,
    cancelled: bool,
    isCompleted: bool,
    payment: bool)
}

=== FILE: calendar.dfy ===
/**
 Calendar dates as the JavaScript `Date` object sees them in one local time
 zone (proleptic Gregorian calendar), the day arithmetic `setDate(getDate() + i)`
 performs, and the `D_M_YYYY` date key under which a doctor's booked slots are
 stored.
 */
module Calendar {
  import opened JsStrings
  import opened JsNumbers
  import opened Options

  /** A calendar date with a 1-based month (`getMonth() + 1`) and day (`getDate()`). */
  datatype Date = Date(year: int, month: int, day: int)

  predicate IsLeapYear(y: int)
  {
    (y % 4 == 0 && y % 100 != 0) || y % 400 == 0
  }

  function DaysInMonth(y: int, m: int): (n: int)
    requires 1 <= m <= 12
    ensures 28 <= n <= 31
  {
    if m == 2 then (if IsLeapYear(y) then 29 else 28)
    else if m == 4 || m == 6 || m == 9 || m == 11 then 30
    else 31
  }

  predicate Valid(d: Date)
  {
    1 <= d.month <= 12 && 1 <= d.day <= DaysInMonth(d.year, d.month)
  }

  /** Chronological order of dates. */
  predicate Before(a: Date, b: Date)
  {
    a.year < b.year ||
    (a.year == b.year && (a.month < b.month || (a.month == b.month && a.day < b.day)))
  }

  lemma BeforeTransitive(a: Date, b: Date, c: Date)
    requires Before(a, b) && Before(b, c)
    ensures Before(a, c)
  {
  }

  /** The following calendar day, rolling over month and year ends. */
  function NextDay(d: Date): (r: Date)
    requires Valid(d)
    ensures Valid(r) && Before(d, r)
  {
    if d.day < DaysInMonth(d.year, d.month) then Date(d.year, d.month, d.day + 1)
    else if d.month < 12 then Date(d.year, d.month + 1, 1)
    else Date(d.year + 1, 1, 1)
  }

  /** The preceding calendar day. */
  function PrevDay(d: Date): (r: Date)
    requires Valid(d)
    ensures Valid(r) && Before(r, d)
  {
    if d.day > 1 then Date(d.year, d.month, d.day - 1)
    else if d.month > 1 then Date(d.year, d.month - 1, DaysInMonth(d.year, d.month - 1))
    else Date(d.year - 1, 12, 31)
  }

  /** Stepping forward then back, or back then forward, returns to the same day. */
  lemma NextPrevInverse(d: Date)
    requires Valid(d)
    ensures PrevDay(NextDay(d)) == d
    ensures NextDay(PrevDay(d)) == d
  {
  }

  /** The date `k` days after `d` (before it when `k` is negative). */
  function ShiftDays(d: Date, k: int): (r: Date)
    requires Valid(d)
    ensures Valid(r)
    ensures k == 0 ==> r == d
    ensures k > 0 ==> Before(d, r)
    ensures k < 0 ==> Before(r, d)
    decreases if k >= 0 then k else -k
  {
    if k == 0 then d
    else if k > 0 then
      var r := ShiftDays(NextDay(d), k - 1);
      assert k - 1 > 0 ==> Before(d, r) by {
        if k - 1 > 0 { BeforeTransitive(d, NextDay(d), r); }
      }
      r
    else
      var r := ShiftDays(PrevDay(d), k + 1);
      assert k + 1 < 0 ==> Before(r, d) by {
        if k + 1 < 0 { BeforeTransitive(r, PrevDay(d), d); }
      }
      r
  }

  /** Shifting forward by `i` and then by `j` days is shifting by `i + j` days. */
  lemma {:induction false} ShiftDaysAdd(d: Date, i: nat, j: nat)
    requires Valid(d)
    ensures ShiftDays(ShiftDays(d, i), j) == ShiftDays(d, i + j)
    decreases i
  {
    if i > 0 {
      ShiftDaysAdd(NextDay(d), i - 1, j);
    }
  }

  /** Days `i < j` after the same start are distinct, `i` coming first. */
  lemma ShiftDaysOrdered(d: Date, i: nat, j: nat)
    requires Valid(d) && i < j
    ensures Before(ShiftDays(d, i), ShiftDays(d, j))
    ensures ShiftDays(d, i) != ShiftDays(d, j)
  {
    ShiftDaysAdd(d, i, j - i);
  }

  /** One more day of shift is the next day, for forward and backward shifts alike. */
  lemma {:induction false} ShiftDaysSucc(d: Date, k: int)
    requires Valid(d)
    ensures ShiftDays(d, k + 1) == NextDay(ShiftDays(d, k))
    decreases if k >= 0 then k else -k
  {
    if k > 0 {
      ShiftDaysSucc(NextDay(d), k - 1);
    } else if k == -1 {
      NextPrevInverse(d);
    } else if k < -1 {
      ShiftDaysSucc(PrevDay(d), k + 1);
    }
  }

  /** Shifting by more days lands strictly later, whatever the signs of the shifts. */
  lemma {:induction false} ShiftDaysMonotone(d: Date, i: int, j: int)
    requires Valid(d) && i < j
    ensures Before(ShiftDays(d, i), ShiftDays(d, j))
    decreases j - i
  {
    ShiftDaysSucc(d, j - 1);
    if i < j - 1 {
      ShiftDaysMonotone(d, i, j - 1);
      BeforeTransitive(ShiftDays(d, i), ShiftDays(d, j - 1), ShiftDays(d, j));
    }
  }

  const MonthNames: seq<string> :=
    ["Jan", "Feb", "Mar", "Apr", "May", "Jun", "Jul", "Aug", "Sep", "Oct", "Nov", "Dec"]

  /** The `D_M_YYYY` key: day and month without zero padding, month 1-based. */
  function DateKey(d: Date): string
  {
    IntToString(d.day) + "_" + IntToString(d.month) + "_" + IntToString(d.year)
  }

  /** The three parts of a date key are exactly the printed day, month and year. */
  lemma DateKeySplit(d: Date)
    requires Valid(d)
    ensures Split(DateKey(d), '_') == [NatToString(d.day), NatToString(d.month), IntToString(d.year)]
  {
    DigitsHaveNo(NatToString(d.day), '_');
    DigitsHaveNo(NatToString(d.month), '_');
    assert IntToString(d.day) == NatToString(d.day);
    assert IntToString(d.month) == NatToString(d.month);
    if d.year < 0 {
      DigitsHaveNo(NatToString(-d.year), '_');
      assert IntToString(d.year) == "-" + NatToString(-d.year);
    } else {
      DigitsHaveNo(NatToString(d.year), '_');
    }
    SplitThree(NatToString(d.day), NatToString(d.month), IntToString(d.year), '_');
  }

  /** Distinct dates have distinct keys, so a key names exactly one day. */
  lemma DateKeyInjective(a: Date, b: Date)
    requires Valid(a) && Valid(b)
    ensures DateKey(a) == DateKey(b) <==> a == b
  {
    if DateKey(a) == DateKey(b) {
      DateKeySplit(a);
      DateKeySplit(b);
      NatToStringInjective(a.day, b.day);
      NatToStringInjective(a.month, b.month);
      IntToStringInjective(a.year, b.year);
    }
  }

  /** How a page turns the month part of a key into a number. */
  datatype MonthReader = ByNumber | ByParseInt

  /** `Number(part)` or `parseInt(part)`; both give NaN for a missing part. */
  function ReadMonthNumber(reader: MonthReader, part: Option<string>): JsNumber
  {
    match part
    case None => NaN
    case Some(s) => (match reader case ByNumber => StringToNumber(s) case ByParseInt => ParseInt(s))
  }

  /** `months[n - 1]` printed in a template: the abbreviation, or "undefined" off the table. */
  function MonthAbbrev(n: JsNumber): string
  {
    if n.Finite? && n.value.Floor as real == n.value && 1 <= n.value.Floor <= 12
    then MonthNames[n.value.Floor - 1]
    else "undefined"
  }

  /** `parts[i]` printed in a template: "undefined" past the end. */
  function PartOrUndefined(parts: seq<string>, i: nat): string
  {
    if i < |parts| then parts[i] else "undefined"
  }

  /**
   `slotDateFormat`: "" for an empty key, otherwise "<day> <Mon> <year>" with
   the day and year parts passed through as written.
   */
  function FormatSlotDate(key: string, reader: MonthReader): string
  {
    if key == "" then "" else FormatDateParts(Split(key, '_'), reader)
  }

  /** "<day> <Mon> <year>" from the pieces of a split key. */
  function FormatDateParts(parts: seq<string>, reader: MonthReader): string
    requires |parts| >= 1
  {
    var month := ReadMonthNumber(reader, if |parts| >= 2 then Some(parts[1]) else None);
    parts[0] + " " + MonthAbbrev(month) + " " + PartOrUndefined(parts, 2)
  }

  /** A key of three pieces whose middle one reads as a month number prints as day, abbreviation and year. */
  lemma FormatThreeParts(key: string, day: string, month: string, year: string, m: int, reader: MonthReader)
    requires Split(key, '_') == [day, month, year]
    requires 1 <= m <= 12 && ReadMonthNumber(reader, Some(month)) == Finite(m as real)
    ensures FormatSlotDate(key, reader) == day + " " + MonthNames[m - 1] + " " + year
  {
    MonthAbbrevOfMonth(m);
  }

  /**
   For a key built from a date, both pages print the unpadded day, the month's
   three-letter abbreviation and the year.
   */
  lemma FormatSlotDateOfKey(d: Date, reader: MonthReader)
    requires Valid(d)
    ensures FormatSlotDate(DateKey(d), reader) ==
              NatToString(d.day) + " " + MonthNames[d.month - 1] + " " + IntToString(d.year)
  {
    DateKeySplit(d);
    ReadMonthOfNat(reader, d.month);
    FormatThreeParts(DateKey(d), NatToString(d.day), NatToString(d.month), IntToString(d.year), d.month, reader);
  }

  /** Both readers read back a printed natural number. */
  lemma ReadMonthOfNat(reader: MonthReader, n: nat)
    ensures ReadMonthNumber(reader, Some(NatToString(n))) == Finite(n as real)
  {
    StringToNumberOfNat(n);
    ParseIntOfNat(n);
  }

  /** A month number 1..12 prints as its abbreviation. */
  lemma MonthAbbrevOfMonth(m: int)
    requires 1 <= m <= 12
    ensures MonthAbbrev(Finite(m as real)) == MonthNames[m - 1]
  {
    assert (m as real).Floor == m;
  }

  /** The empty key prints as the empty string, and only it. */
  lemma FormatSlotDateEmpty(key: string, reader: MonthReader)
    ensures FormatSlotDate(key, reader) == "" <==> key == ""
  {
    if key != "" {
      var parts := Split(key, '_');
      var r := FormatDateParts(parts, reader);
      assert r[|parts[0]|] == ' ';
    }
  }

  /** The `YYYY-MM-DD` value a date input holds for `d` (four-digit years). */
  function IsoDate(d: Date): string
    requires Valid(d) && 0 <= d.year <= 9999
  {
    PadStart(NatToString(d.year), 4, '0') + "-" +
    PadStart(NatToString(d.month), 2, '0') + "-" +
    PadStart(NatToString(d.day), 2, '0')
  }
}

=== FILE: js_numbers.dfy ===
/**
 The JavaScript number conversions the code relies on: decimal formatting of
 integers inside template literals, `Number(string)`, `parseInt(string)`,
 `isNaN`, truthiness, and the truncation `Date.prototype.setHours` applies to
 its arguments.

 `Number(string)` is modelled for the empty string (0), an optional sign
 followed by decimal digits with an optional fraction, and NaN for everything
 else; surrounding white space, exponents, hexadecimal/octal/binary literals
 and "Infinity" are not modelled (they read as NaN here).
 */
module JsNumbers {
  import opened JsStrings

  /** A JavaScript number: NaN or a finite value (floating-point rounding is not modelled). */
  datatype JsNumber = NaN | Finite(value: real)

  /** A JavaScript value as it arrives in a request body. */
  datatype JsValue =
    | Undefined
    | Null
    | Bool(b: bool)
    | Num(n: JsNumber)
    | Str(s: string)
    | Obj   // objects and arrays

  predicate IsDigit(c: char) { '0' <= c <= '9' }

  predicate AllDigits(s: string) { forall i :: 0 <= i < |s| ==> IsDigit(s[i]) }

  function DigitValue(c: char): (d: nat)
    requires IsDigit(c)
    ensures d < 10
  {
    (c as int - '0' as int) as nat
  }

  function DigitChar(d: nat): (c: char)
    requires d < 10
    ensures IsDigit(c) && DigitValue(c) == d
  {
    ('0' as int + d) as char
  }

  /** Value of a string of decimal digits, most significant first. */
  function DigitsValue(s: string): nat
    requires AllDigits(s)
  {
    if |s| == 0 then 0 else DigitsValue(s[..|s| - 1]) * 10 + DigitValue(s[|s| - 1])
  }

  /** `${n}` for a non-negative integer: decimal, no leading zeros. */
  function NatToString(n: nat): (s: string)
    ensures |s| >= 1 && AllDigits(s)
    ensures s[0] == '0' ==> n == 0
  {
    if n < 10 then [DigitChar(n)] else NatToString(n / 10) + [DigitChar(n % 10)]
  }

  /** `${i}` for any integer: a minus sign before the magnitude of a negative number. */
  function IntToString(i: int): (s: string)
    ensures |s| >= 1
    ensures (s[0] == '-') <==> i < 0
  {
    if i < 0 then "-" + NatToString(-i) else NatToString(i)
  }

  /** Reading back the decimal digits of `n` gives `n`. */
  lemma {:induction false} DigitsOfNatToString(n: nat)
    ensures DigitsValue(NatToString(n)) == n
  {
    var s := NatToString(n);
    if n >= 10 {
      DigitsOfNatToString(n / 10);
      assert s[..|s| - 1] == NatToString(n / 10);
    }
  }

  /** Distinct numbers print differently. */
  lemma NatToStringInjective(a: nat, b: nat)
    requires NatToString(a) == NatToString(b)
    ensures a == b
  {
    DigitsOfNatToString(a);
    DigitsOfNatToString(b);
  }

  lemma IntToStringInjective(a: int, b: int)
    requires IntToString(a) == IntToString(b)
    ensures a == b
  {
    if a < 0 {
      assert IntToString(a)[1..] == NatToString(-a);
      assert IntToString(b)[1..] == NatToString(-b);
      NatToStringInjective(-a, -b);
    } else {
      NatToStringInjective(a, b);
    }
  }

  /** The number of digits printed for small numbers. */
  lemma NatToStringLength(n: nat)
    ensures n < 10 ==> |NatToString(n)| == 1
    ensures 10 <= n < 100 ==> |NatToString(n)| == 2
    ensures 1000 <= n < 10000 ==> |NatToString(n)| == 4
  {
    if n >= 1000 {
      NatToStringLength(n / 10);
    }
  }

  /** A decimal string never contains a separator character such as '_' or ':'. */
  lemma DigitsHaveNo(s: string, c: char)
    requires AllDigits(s) && !IsDigit(c)
    ensures c !in s
  {
  }

  /** `Math.trunc`, as applied by `setHours`/`setMinutes` to their arguments. */
  function Trunc(r: real): (i: int)
    ensures r >= 0.0 ==> i as real <= r < i as real + 1.0
    ensures r < 0.0 ==> i as real - 1.0 < r <= i as real
  {
    if r >= 0.0 then r.Floor else -((-r).Floor)
  }

  /** A whole number is its own truncation. */
  lemma TruncOfNat(n: nat)
    ensures Trunc(n as real) == n
  {
  }

  function Pow10(n: nat): (p: nat)
    ensures p >= 1
  {
    if n == 0 then 1 else 10 * Pow10(n - 1)
  }

  /** Unsigned decimal with an optional fraction: "12", "12.5", ".5", "12."; at least one digit. */
  function UnsignedDecimal(s: string): JsNumber
  {
    if '.' in s then
      var k := DotIndex(s);
      var whole, fraction := s[..k], s[k + 1..];
      if |whole| + |fraction| >= 1 && AllDigits(whole) && AllDigits(fraction)
      then Finite(DigitsValue(whole) as real + DigitsValue(fraction) as real / Pow10(|fraction|) as real)
      else NaN
    else if |s| >= 1 && AllDigits(s) then Finite(DigitsValue(s) as real)
    else NaN
  }

  function DotIndex(s: string): (k: nat)
    requires '.' in s
    ensures k < |s| && s[k] == '.'
  {
    if s[0] == '.' then 0 else 1 + DotIndex(s[1..])
  }

  /** `Number(s)` for a string. */
  function StringToNumber(s: string): JsNumber
  {
    if |s| == 0 then Finite(0.0)
    else if s[0] == '-' then
      (match UnsignedDecimal(s[1..]) case NaN => NaN case Finite(v) => Finite(-v))
    else if s[0] == '+' then UnsignedDecimal(s[1..])
    else UnsignedDecimal(s)
  }

  /** The leading run of decimal digits of `s`. */
  function DigitPrefix(s: string): (p: string)
    ensures AllDigits(p) && |p| <= |s| && p == s[..|p|]
    ensures |p| < |s| ==> !IsDigit(s[|p|])
  {
    if |s| == 0 || !IsDigit(s[0]) then "" else [s[0]] + DigitPrefix(s[1..])
  }

  /** `parseInt(s)`: an optional sign, then the leading digits; NaN when there are none. */
  function ParseInt(s: string): JsNumber
  {
    var negative := |s| > 0 && s[0] == '-';
    var body := if |s| > 0 && (s[0] == '-' || s[0] == '+') then s[1..] else s;
    var digits := DigitPrefix(body);
    if |digits| == 0 then NaN
    else Finite(if negative then -(DigitsValue(digits) as real) else DigitsValue(digits) as real)
  }

  /** `Number(v)` for a request-body value (objects and arrays read as NaN). */
  function ToNumber(v: JsValue): JsNumber
  {
    match v
    case Undefined => NaN
    case Null => Finite(0.0)
    case Bool(b) => Finite(if b then 1.0 else 0.0)
    case Num(n) => n
    case Str(s) => StringToNumber(s)
    case Obj => NaN
  }

  /** `isNaN(v)`: true exactly when `Number(v)` is NaN. */
  predicate IsNaN(v: JsValue)
  {
    ToNumber(v).NaN?
  }

  /** JavaScript truthiness: false for undefined, null, false, 0, NaN and the empty string. */
  predicate Truthy(v: JsValue)
  {
    match v
    case Undefined => false
    case Null => false
    case Bool(b) => b
    case Num(n) => n.Finite? && n.value != 0.0
    case Str(s) => s != ""
    case Obj => true
  }

  /** `Number` of a non-empty string of digits is its decimal value. */
  lemma StringToNumberOfDigits(s: string)
    requires |s| >= 1 && AllDigits(s)
    ensures StringToNumber(s) == Finite(DigitsValue(s) as real)
  {
    DigitsHaveNo(s, '.');
    assert IsDigit(s[0]);
  }

  /** `Number` reads back what a template literal printed for a natural number. */
  lemma StringToNumberOfNat(n: nat)
    ensures StringToNumber(NatToString(n)) == Finite(n as real)
  {
    DigitsOfNatToString(n);
    StringToNumberOfDigits(NatToString(n));
  }

  /** A leading zero does not change the value of a digit string. */
  lemma {:induction false} LeadingZeroValue(s: string)
    requires AllDigits(s)
    ensures AllDigits("0" + s) && DigitsValue("0" + s) == DigitsValue(s)
    decreases |s|
  {
    if |s| > 0 {
      var t := "0" + s;
      assert t[..|t| - 1] == "0" + s[..|s| - 1];
      LeadingZeroValue(s[..|s| - 1]);
    }
  }

  /** `String(n).padStart(2, '0')` is a digit string whose value is still `n`. */
  lemma PaddedValue(n: nat)
    ensures |PadStart(NatToString(n), 2, '0')| >= 2
    ensures AllDigits(PadStart(NatToString(n), 2, '0'))
    ensures DigitsValue(PadStart(NatToString(n), 2, '0')) == n
  {
    NatToStringLength(n);
    DigitsOfNatToString(n);
    if n < 10 {
      assert PadStart(NatToString(n), 2, '0') == "0" + NatToString(n);
      LeadingZeroValue(NatToString(n));
    }
  }

  /** Zero-padding to two places keeps distinct numbers distinct (for every size of number). */
  lemma PaddedInjective(a: nat, b: nat)
    requires PadStart(NatToString(a), 2, '0') == PadStart(NatToString(b), 2, '0')
    ensures a == b
  {
    PaddedValue(a);
    PaddedValue(b);
  }

  /** `parseInt` reads back what a template literal printed for a natural number. */
  lemma ParseIntOfNat(n: nat)
    ensures ParseInt(NatToString(n)) == Finite(n as real)
  {
    var s := NatToString(n);
    DigitsOfNatToString(n);
    assert s[0] != '-' && s[0] != '+' by { assert IsDigit(s[0]); }
    AllDigitsPrefix(s);
  }

  /** On a string of digits, the leading digit run is the whole string. */
  lemma {:induction false} AllDigitsPrefix(s: string)
    requires AllDigits(s)
    ensures DigitPrefix(s) == s
    decreases |s|
  {
    if |s| > 0 {
      AllDigitsPrefix(s[1..]);
    }
  }
}

=== FILE: js_strings.dfy ===
/**
 The JavaScript string operations the scheduling and admin code relies on:
 `split` on a one-character separator, `join`, `padStart` with a one-character
 pad, and `replace(/c/g, d)` on one character.
 */
module JsStrings {

  /** Index of the first occurrence of `c` in `s`. */
  function IndexOf(s: string, c: char): (k: nat)
    requires c in s
    ensures k < |s| && s[k] == c && c !in s[..k]
  {
    if s[0] == c then 0 else 1 + IndexOf(s[1..], c)
  }

  /** `parts.join(sep)`. */
  function Join(parts: seq<string>, sep: char): string
  {
    if |parts| == 0 then ""
    else if |parts| == 1 then parts[0]
    else parts[0] + [sep] + Join(parts[1..], sep)
  }

  /**
   `s.split(sep)`: the pieces between separators, never empty (the empty string
   splits to one empty piece), with no separator left inside a piece, and
   joining them back gives `s`.
   */
  function Split(s: string, sep: char): (parts: seq<string>)
    ensures |parts| >= 1
    ensures forall i :: 0 <= i < |parts| ==> sep !in parts[i]
    ensures Join(parts, sep) == s
    decreases |s|
  {
    if sep !in s then [s]
    else
      var k := IndexOf(s, sep);
      var rest := Split(s[k + 1..], sep);
      assert s == s[..k] + [sep] + s[k + 1..];
      [s[..k]] + rest
  }

  lemma IndexOfAfterPrefix(a: string, c: char, b: string)
    requires c !in a
    ensures c in a + [c] + b && IndexOf(a + [c] + b, c) == |a|
  {
    var s := a + [c] + b;
    assert s[|a|] == c;
    var k := IndexOf(s, c);
    assert s[..|a|] == a;
  }

  /** Splitting a join of separator-free pieces gives the pieces back. */
  lemma {:induction false} SplitJoin(parts: seq<string>, sep: char)
    requires |parts| >= 1
    requires forall i :: 0 <= i < |parts| ==> sep !in parts[i]
    ensures Split(Join(parts, sep), sep) == parts
    decreases |parts|
  {
    if |parts| > 1 {
      var head, tail := parts[0], parts[1..];
      var rest := Join(tail, sep);
      var s := head + [sep] + rest;
      assert Join(parts, sep) == s;
      IndexOfAfterPrefix(head, sep, rest);
      assert s[..|head|] == head && s[|head| + 1..] == rest;
      assert Split(s, sep) == [head] + Split(rest, sep);
      SplitJoin(tail, sep);
      assert parts == [head] + tail;
    }
  }

  /** Three separator-free pieces joined with `sep` split back into exactly those pieces. */
  lemma SplitThree(a: string, b: string, c: string, sep: char)
    requires sep !in a && sep !in b && sep !in c
    ensures Split(a + [sep] + b + [sep] + c, sep) == [a, b, c]
  {
    JoinThree(a, b, c, sep);
    SplitJoin([a, b, c], sep);
  }

  /** Joining three pieces puts one separator between neighbours. */
  lemma JoinThree(a: string, b: string, c: string, sep: char)
    ensures Join([a, b, c], sep) == a + [sep] + b + [sep] + c
  {
    var parts := [a, b, c];
    assert Join(parts[2..], sep) == c;
    assert Join(parts[1..], sep) == b + [sep] + c;
  }

  /** A piece that holds no separator splits to itself alone. */
  lemma SplitNoSeparator(s: string, sep: char)
    requires sep !in s
    ensures Split(s, sep) == [s]
  {
  }

  /** A character absent from `s` is absent from every piece of it. */
  lemma {:induction false} SplitPiecesInside(s: string, sep: char, c: char)
    requires c !in s
    ensures forall i :: 0 <= i < |Split(s, sep)| ==> c !in Split(s, sep)[i]
    decreases |s|
  {
    if sep in s {
      var k := IndexOf(s, sep);
      assert s == s[..k] + [sep] + s[k + 1..];
      SplitPiecesInside(s[k + 1..], sep, c);
    }
  }

  /** The text after the last separator is the last piece. */
  lemma {:induction false} SplitLast(a: string, sep: char, b: string)
    requires sep !in b
    ensures var parts := Split(a + [sep] + b, sep); parts[|parts| - 1] == b
    decreases |a|
  {
    var parts := Split(a + [sep] + b, sep);
    if sep !in a {
      SplitCons(a, sep, b);
      SplitNoSeparator(b, sep);
      assert parts == [a, b];
    } else {
      var k := IndexOf(a, sep);
      var rest := a[k + 1..] + [sep] + b;
      Regroup(a, k, sep, b);
      SplitCons(a[..k], sep, rest);
      var tail := Split(rest, sep);
      assert parts == [a[..k]] + tail;
      SplitLast(a[k + 1..], sep, b);
      assert parts[|parts| - 1] == tail[|tail| - 1];
    }
  }

  /** Cutting `a` at a separator inside it. */
  lemma Regroup(a: string, k: nat, sep: char, b: string)
    requires k < |a| && a[k] == sep
    ensures a + [sep] + b == a[..k] + [sep] + (a[k + 1..] + [sep] + b)
  {
    assert a == a[..k] + [sep] + a[k + 1..];
  }

  /** A separator-free lead piece comes first, followed by the pieces of the rest. */
  lemma SplitCons(a: string, sep: char, b: string)
    requires sep !in a
    ensures Split(a + [sep] + b, sep) == [a] + Split(b, sep)
  {
    var s := a + [sep] + b;
    IndexOfAfterPrefix(a, sep, b);
    assert s[..|a|] == a && s[|a| + 1..] == b;
  }

  /** The text before the first separator is the first piece. */
  lemma SplitFirst(a: string, sep: char, b: string)
    requires sep !in a
    ensures Split(a + [sep] + b, sep)[0] == a
  {
    var s := a + [sep] + b;
    IndexOfAfterPrefix(a, sep, b);
    assert s[..|a|] == a;
  }

  /** `n` copies of `c`. */
  function Repeat(c: char, n: nat): (r: string)
    ensures |r| == n
    ensures forall i :: 0 <= i < n ==> r[i] == c
  {
    if n == 0 then "" else [c] + Repeat(c, n - 1)
  }

  /**
   `s.padStart(n, c)`: `s` itself when it is already `n` long or longer,
   otherwise `s` preceded by enough copies of `c` to make it exactly `n` long.
   */
  function PadStart(s: string, n: nat, c: char): (r: string)
    ensures |s| >= n ==> r == s
    ensures |s| < n ==> |r| == n
    ensures |r| >= |s| && r[|r| - |s|..] == s
    ensures forall i :: 0 <= i < |r| - |s| ==> r[i] == c
  {
    if |s| >= n then s else Repeat(c, n - |s|) + s
  }

  /** `s.replace(/from/g, to)` for single characters. */
  function ReplaceAll(s: string, from: char, to: char): (r: string)
    ensures |r| == |s|
    ensures forall i :: 0 <= i < |s| ==> r[i] == (if s[i] == from then to else s[i])
  {
    if |s| == 0 then "" else [if s[0] == from then to else s[0]] + ReplaceAll(s[1..], from, to)
  }

  /**
   `s.length`: the number of UTF-16 code units, so a character outside the
   Basic Multilingual Plane counts twice.
   */
  function Utf16Length(s: string): (n: nat)
    ensures |s| <= n <= 2 * |s|
  {
    if |s| == 0 then 0 else (if s[0] as int >= 0x1_0000 then 2 else 1) + Utf16Length(s[1..])
  }

  /** A string of Basic Multilingual Plane characters is as long in code units as in characters. */
  lemma {:induction false} Utf16LengthOfPlane(s: string)
    requires forall i :: 0 <= i < |s| ==> s[i] as int < 0x1_0000
    ensures Utf16Length(s) == |s|
  {
    if |s| > 0 {
      assert forall i :: 0 <= i < |s[1..]| ==> s[1..][i] == s[i + 1];
      Utf16LengthOfPlane(s[1..]);
    }
  }

}

=== FILE: options.dfy ===
/** Optional values: `None` stands for JavaScript's `undefined` (or a value that is absent). */
module Options {

  datatype Option<T> = None | Some(value: T)
}

=== FILE: reschedule.dfy ===
/**
 The reschedule page's submit guards (`handleReschedule`): what happens when
 the patient presses the button, up to the point where the request would be
 sent. The request itself and what the server does with it are not modelled.
 */
module Reschedule {
  import opened Options
  import opened Calendar
  import opened SlotGenerator
  import opened WeekSlots

  /**
   How a press of the button ends: a warning that no time is selected, a
   `TypeError` from reading the first slot of a missing or empty day list, a
   notice that the chosen slot is the current one, or the request that would
   be sent with the new date key and time label.
   */
  datatype Outcome =
    | NoTimeSelected
    | Crash
    | SameAsCurrent
    | Submit(newSlotDate: string, newSlotTime: string)

  /**
   `handleReschedule` with the page's state: the week's slot lists, the
   selected day index and time label, and the appointment's current slot.
   The new date key is read off the first slot of the selected day.
   */
  function HandleReschedule(week: seq<seq<Slot>>, slotIndex: int, slotTime: string, current: SlotRef): (o: Outcome)
    ensures o.NoTimeSelected? <==> slotTime == ""
    ensures o.Crash? <==> slotTime != "" && !(0 <= slotIndex < |week| && |week[slotIndex]| > 0)
    ensures o.SameAsCurrent? <==> slotTime != "" && 0 <= slotIndex < |week| && |week[slotIndex]| > 0 &&
                                  SlotRef(DateKey(week[slotIndex][0].date), slotTime) == current
    ensures o.Submit? ==> o.newSlotDate == DateKey(week[slotIndex][0].date) && o.newSlotTime == slotTime
  {
    if slotTime == "" then NoTimeSelected
    else if !(0 <= slotIndex < |week|) || |week[slotIndex]| == 0 then Crash
    else
      var newSlotDate := DateKey(week[slotIndex][0].date);
      if newSlotDate == current.slotDate && slotTime == current.slotTime then SameAsCurrent
      else Submit(newSlotDate, slotTime)
  }

  /** No request ever asks to move an appointment onto its own current slot. */
  lemma NeverSubmitsCurrentSlot(week: seq<seq<Slot>>, slotIndex: int, slotTime: string, current: SlotRef)
    requires HandleReschedule(week, slotIndex, slotTime, current).Submit?
    ensures var o := HandleReschedule(week, slotIndex, slotTime, current);
      SlotRef(o.newSlotDate, o.newSlotTime) != current
  {
  }

  /**
   On the page's own week, the submitted date key is the key under which the
   generator looked up the selected day's booked labels: `DateKey` of the
   day `slotIndex` days after today.
   */
  lemma SubmittedKeyIsGenerationKey(now: Instant, doc: DoctorInfo, own: SlotRef, labelOf: (int, int) -> string,
                                    slotIndex: int, slotTime: string, dayStart: int, dayEnd: int)
    requires ValidInstant(now)
    requires ParseClock(OrDefault(doc.startTime, DefaultStart)) == Some(dayStart) && 0 <= dayStart
    requires ParseClock(OrDefault(doc.endTime, DefaultEnd)) == Some(dayEnd) && dayEnd <= MinutesPerDay
    requires HandleReschedule(AvailableSlots(now, doc, own, labelOf), slotIndex, slotTime, own).Submit?
    ensures 0 <= slotIndex < DaysShown
    ensures HandleReschedule(AvailableSlots(now, doc, own, labelOf), slotIndex, slotTime, own).newSlotDate ==
              DateKey(ShiftDays(now.date, slotIndex))
  {
    var week := AvailableSlots(now, doc, own, labelOf);
    WeekSlotsOnTheirDay(now, doc, own, labelOf, slotIndex, dayStart, dayEnd, week[slotIndex][0]);
  }

  /**
   When the selected time is the label of a slot offered on the selected day,
   the request names exactly that slot, and the slot is not booked: the
   availability test only lets a booked label through for the appointment's
   own slot, and that one is refused before sending.
   */
  lemma SubmittedOfferedSlotIsFree(now: Instant, doc: DoctorInfo, own: SlotRef, labelOf: (int, int) -> string,
                                   slotIndex: nat, dayStart: int, dayEnd: int, s: Slot)
    requires ValidInstant(now) && slotIndex < DaysShown
    requires ParseClock(OrDefault(doc.startTime, DefaultStart)) == Some(dayStart) && 0 <= dayStart
    requires ParseClock(OrDefault(doc.endTime, DefaultEnd)) == Some(dayEnd) && dayEnd <= MinutesPerDay
    requires s in AvailableSlots(now, doc, own, labelOf)[slotIndex] && s.time != ""
    requires HandleReschedule(AvailableSlots(now, doc, own, labelOf), slotIndex, s.time, own).Submit?
    ensures HandleReschedule(AvailableSlots(now, doc, own, labelOf), slotIndex, s.time, own) ==
              Submit(DateKey(s.date), s.time)
    ensures !(DateKey(s.date) in doc.slotsBooked && s.time in doc.slotsBooked[DateKey(s.date)])
  {
    var week := AvailableSlots(now, doc, own, labelOf);
    var day := ShiftDays(now.date, slotIndex);
    WeekSlotsOnTheirDay(now, doc, own, labelOf, slotIndex, dayStart, dayEnd, s);
    WeekSlotsOnTheirDay(now, doc, own, labelOf, slotIndex, dayStart, dayEnd, week[slotIndex][0]);
    assert s in DaySlots(now, doc, own, labelOf, slotIndex);
    GeneratedSlotInWindow(day, OrDefault(doc.startTime, DefaultStart), OrDefault(doc.endTime, DefaultEnd),
                          now, doc.slotsBooked, own, labelOf, dayStart, dayEnd, s);
  }

  /**
   The guards do not check the selected label against the selected day: a
   label that no slot of that day carries (one kept from another day, say)
   is sent as it is, as long as the pair is not the current slot.
   */
  lemma TimeNotCheckedAgainstDay(week: seq<seq<Slot>>, slotIndex: int, slotTime: string, current: SlotRef)
    requires slotTime != "" && 0 <= slotIndex < |week| && |week[slotIndex]| > 0
    requires forall s :: s in week[slotIndex] ==> s.time != slotTime
    requires SlotRef(DateKey(week[slotIndex][0].date), slotTime) != current
    ensures HandleReschedule(week, slotIndex, slotTime, current) == Submit(DateKey(week[slotIndex][0].date), slotTime)
  {
  }
}

=== FILE: seqs.dfy ===
/**
 Order-preserving sequence operations used by every filter in the model:
 `Array.prototype.filter`, `Array.prototype.map`, `Array.prototype.reverse`,
 and the subsequence relation that states "nothing is reordered or invented".
 */
module Seqs {
  import opened Options

  /** `sub` can be obtained from `s` by deleting elements, keeping the order of the rest. */
  predicate IsSubsequence<T(==)>(sub: seq<T>, s: seq<T>)
    decreases |s|
  {
    |sub| == 0 ||
    (|s| > 0 &&
     ((sub[0] == s[0] && IsSubsequence(sub[1..], s[1..])) || IsSubsequence(sub, s[1..])))
  }

  /** Number of elements of `s` that satisfy `p`. */
  function Count<T>(p: T -> bool, s: seq<T>): nat
  {
    if |s| == 0 then 0 else (if p(s[0]) then 1 else 0) + Count(p, s[1..])
  }

  /** `Array.prototype.filter`: keeps exactly the elements satisfying `p`, in order. */
  function Filter<T(==)>(p: T -> bool, s: seq<T>): (r: seq<T>)
    ensures IsSubsequence(r, s)
    ensures forall i :: 0 <= i < |r| ==> p(r[i])
    ensures |r| == Count(p, s)
    ensures forall x :: x in s && p(x) ==> x in r
  {
    if |s| == 0 then []
    else if p(s[0]) then [s[0]] + Filter(p, s[1..])
    else
      var rest := Filter(p, s[1..]);
      assert IsSubsequence(rest, s) by { SubsequenceOfTail(rest, s); }
      rest
  }

  /** `Array.prototype.map`. */
  function Map<T, U>(f: T -> U, s: seq<T>): (r: seq<U>)
    ensures |r| == |s|
    ensures forall i :: 0 <= i < |s| ==> r[i] == f(s[i])
  {
    if |s| == 0 then [] else [f(s[0])] + Map(f, s[1..])
  }

  /** `Array.prototype.reverse`: the element at position i moves to position |s|-1-i. */
  function Reverse<T>(s: seq<T>): (r: seq<T>)
    ensures |r| == |s|
    ensures forall i :: 0 <= i < |s| ==> r[i] == s[|s| - 1 - i]
  {
    if |s| == 0 then [] else Reverse(s[1..]) + [s[0]]
  }

  lemma SubsequenceOfTail<T>(sub: seq<T>, s: seq<T>)
    requires |s| > 0
    requires IsSubsequence(sub, s[1..])
    ensures IsSubsequence(sub, s)
  {
  }

  /** A filter that keeps everything returns its input unchanged. */
  lemma {:induction false} FilterAll<T>(p: T -> bool, s: seq<T>)
    requires forall i :: 0 <= i < |s| ==> p(s[i])
    ensures Filter(p, s) == s
    decreases |s|
  {
    if |s| > 0 {
      FilterAll(p, s[1..]);
      assert s == [s[0]] + s[1..];
    }
  }

  /** Filtering distributes over concatenation. */
  lemma {:induction false} FilterAppend<T>(p: T -> bool, a: seq<T>, b: seq<T>)
    ensures Filter(p, a + b) == Filter(p, a) + Filter(p, b)
    decreases |a|
  {
    if |a| == 0 {
      assert a + b == b;
    } else {
      assert (a + b)[1..] == a[1..] + b;
      FilterAppend(p, a[1..], b);
    }
  }

  /** Every element of a subsequence is an element of the sequence. */
  lemma {:induction false} SubsequenceElements<T>(sub: seq<T>, s: seq<T>, x: T)
    requires IsSubsequence(sub, s) && x in sub
    ensures x in s
    decreases |s|
  {
    if sub[0] == s[0] && IsSubsequence(sub[1..], s[1..]) {
      if x != sub[0] {
        SubsequenceElements(sub[1..], s[1..], x);
      }
    } else {
      SubsequenceElements(sub, s[1..], x);
    }
  }

  /** A subsequence of a sequence whose keys rise strictly has strictly rising keys too. */
  lemma {:induction false} SubsequenceRising<T>(key: T -> int, sub: seq<T>, s: seq<T>)
    requires IsSubsequence(sub, s)
    requires forall i, j :: 0 <= i < j < |s| ==> key(s[i]) < key(s[j])
    ensures forall i, j :: 0 <= i < j < |sub| ==> key(sub[i]) < key(sub[j])
    decreases |s|
  {
    if |sub| == 0 {
    } else if sub[0] == s[0] && IsSubsequence(sub[1..], s[1..]) {
      SubsequenceRising(key, sub[1..], s[1..]);
      forall j | 0 < j < |sub|
        ensures key(sub[0]) < key(sub[j])
      {
        SubsequenceElements(sub[1..], s[1..], sub[j]);
        var k :| 0 <= k < |s[1..]| && s[1..][k] == sub[j];
        assert s[k + 1] == sub[j];
      }
      forall i, j | 0 < i < j < |sub|
        ensures key(sub[i]) < key(sub[j])
      {
        assert sub[i] == sub[1..][i - 1] && sub[j] == sub[1..][j - 1];
      }
    } else {
      SubsequenceRising(key, sub, s[1..]);
    }
  }

  /**
   Mapping then filtering: an element of the result is the image of an input
   element and passes the test, and the image of an input element is in the
   result exactly when it passes the test.
   */
  lemma FilterMapMembers<T, U>(f: T -> U, p: U -> bool, xs: seq<T>)
    ensures forall y :: y in Filter(p, Map(f, xs)) ==> p(y) && exists x :: x in xs && y == f(x)
    ensures forall x :: x in xs ==> (f(x) in Filter(p, Map(f, xs)) <==> p(f(x)))
  {
    var ys := Map(f, xs);
    var r := Filter(p, ys);
    forall y | y in r
      ensures p(y) && exists x :: x in xs && y == f(x)
    {
      SubsequenceElements(r, ys, y);
      var i :| 0 <= i < |ys| && ys[i] == y;
      assert xs[i] in xs;
      var k :| 0 <= k < |r| && r[k] == y;
    }
    forall x | x in xs
      ensures f(x) in r <==> p(f(x))
    {
      var i :| 0 <= i < |xs| && xs[i] == x;
      assert ys[i] == f(x);
      if f(x) in r {
        var k :| 0 <= k < |r| && r[k] == f(x);
      }
    }
  }

  /** Mapping over a sequence with a first element maps that element first. */
  lemma MapCons<T, U>(f: T -> U, x: T, s: seq<T>)
    ensures Map(f, [x] + s) == [f(x)] + Map(f, s)
  {
    assert ([x] + s)[1..] == s;
  }

  /** Filtering a sequence with a first element decides that element first. */
  lemma FilterCons<T>(p: T -> bool, x: T, s: seq<T>)
    ensures Filter(p, [x] + s) == (if p(x) then [x] else []) + Filter(p, s)
  {
    assert ([x] + s)[1..] == s;
  }

  /**
   `Array.prototype.filter` with a callback that may throw (`None`): the first
   throwing call aborts the whole filter.
   */
  function TryFilter<T>(p: T -> Option<bool>, s: seq<T>): (r: Option<seq<T>>)
    ensures r.Some? <==> forall i :: 0 <= i < |s| ==> p(s[i]).Some?
    decreases |s|
  {
    if |s| == 0 then Some([])
    else
      match p(s[0])
      case None => None
      case Some(keep) =>
        match TryFilter(p, s[1..])
        case None =>
          assert exists i :: 0 <= i < |s| && !p(s[i]).Some? by {
            var i :| 0 <= i < |s[1..]| && !p(s[1..][i]).Some?;
            assert s[1..][i] == s[i + 1];
          }
          None
        case Some(rest) => Some((if keep then [s[0]] else []) + rest)
  }

  /**
   When no call throws, and each call answers what the test `q` says, the
   throwing filter keeps exactly what `Filter(q, _)` keeps.
   */
  lemma {:induction false} TryFilterAsFilter<T>(p: T -> Option<bool>, q: T -> bool, s: seq<T>)
    requires forall i :: 0 <= i < |s| ==> p(s[i]) == Some(q(s[i]))
    ensures TryFilter(p, s) == Some(Filter(q, s))
    decreases |s|
  {
    if |s| > 0 {
      var x, t := s[0], s[1..];
      assert forall i :: 0 <= i < |t| ==> t[i] == s[i + 1];
      TryFilterAsFilter(p, q, t);
      assert p(x) == Some(q(x));
      assert TryFilter(p, s) == Some((if q(x) then [x] else []) + Filter(q, t));
      assert s == [x] + t;
      FilterCons(q, x, t);
    }
  }

  /** Three filters in a row keep what one filter by their conjunction keeps. */
  lemma {:induction false} FilterCompose3<T>(p: T -> bool, q: T -> bool, r: T -> bool, all: T -> bool, s: seq<T>)
    requires forall i :: 0 <= i < |s| ==> all(s[i]) == (p(s[i]) && q(s[i]) && r(s[i]))
    ensures Filter(r, Filter(q, Filter(p, s))) == Filter(all, s)
    decreases |s|
  {
    if |s| > 0 {
      var x, t := s[0], s[1..];
      assert forall i :: 0 <= i < |t| ==> t[i] == s[i + 1];
      FilterCompose3(p, q, r, all, t);
      assert s == [x] + t;
      FilterCons(p, x, t);
      if p(x) {
        FilterCons(q, x, Filter(p, t));
        if q(x) {
          FilterCons(r, x, Filter(q, Filter(p, t)));
        }
      }
      FilterCons(all, x, t);
    }
  }

  /** An element is in the filtered sequence exactly when it is in the sequence and passes the test. */
  lemma FilterMembers<T>(p: T -> bool, s: seq<T>)
    ensures forall x :: x in Filter(p, s) <==> x in s && p(x)
  {
    var r := Filter(p, s);
    forall x | x in r
      ensures x in s && p(x)
    {
      SubsequenceElements(r, s, x);
      var k :| 0 <= k < |r| && r[k] == x;
    }
  }

  /** A prefix one longer is the prefix followed by the next element. */
  lemma TakeOneMore<T>(s: seq<T>, i: nat)
    requires i < |s|
    ensures s[..i + 1] == s[..i] + [s[i]]
  {
  }

  lemma TakeAll<T>(s: seq<T>)
    ensures s[..|s|] == s
  {
  }

  lemma AppendAssoc<T>(a: seq<T>, b: seq<T>, c: seq<T>)
    ensures a + (b + c) == (a + b) + c
  {
  }

  lemma MapAppend<T, U>(f: T -> U, a: seq<T>, b: seq<T>)
    ensures Map(f, a + b) == Map(f, a) + Map(f, b)
  {
    var l, r := Map(f, a + b), Map(f, a) + Map(f, b);
    assert |l| == |r|;
    forall i | 0 <= i < |l|
      ensures l[i] == r[i]
    {
      if i < |a| {
        assert (a + b)[i] == a[i];
      } else {
        assert (a + b)[i] == b[i - |a|];
      }
    }
  }

  lemma {:induction false} ReverseMultiset<T>(s: seq<T>)
    ensures multiset(Reverse(s)) == multiset(s)
    decreases |s|
  {
    if |s| > 0 {
      ReverseMultiset(s[1..]);
      assert Reverse(s) == Reverse(s[1..]) + [s[0]];
      assert s == [s[0]] + s[1..];
    }
  }

  lemma ReverseThree<T>(a: T, b: T, c: T)
    ensures Reverse([a, b, c]) == [c, b, a]
  {
    var r := Reverse([a, b, c]);
    assert r[0] == c && r[1] == b && r[2] == a;
  }
}

=== FILE: slot_generator.dfy ===
/**
 The reschedule page's slot generator (`generateTimeSlots`): a cursor walks a
 doctor's working day in 15-minute steps, jumps over the fixed 12:00-13:00
 break, starts no earlier than the next quarter hour after "now" on the
 current day, and offers every candidate whose time label is not already
 booked for its date, except that the appointment's own slot stays on offer.

 Times are minutes counted from midnight of the day being generated; the
 current instant is a parameter, and so is the locale's time label
 (`toLocaleTimeString`), a function of hour and minute of the day.
 */
module SlotGenerator {
  import opened Options
  import opened Seqs
  import opened JsStrings
  import opened JsNumbers
  import opened Calendar

  const SlotMinutes := 15
  const BreakStart := 12 * 60
  const BreakEnd := 13 * 60
  const MinutesPerDay := 24 * 60

  /** The current instant: a calendar date, the minute of that day and the milliseconds into that minute. */
  datatype Instant = Instant(date: Date, minute: int, millis: int)

  predicate ValidInstant(now: Instant)
  {
    Valid(now.date) && 0 <= now.minute < MinutesPerDay && 0 <= now.millis < 60000
  }

  /** An offered slot: its instant (`at` minutes after midnight of the generated day, on calendar date `date`), its label and its month's abbreviation. */
  datatype Slot = Slot(at: int, date: Date, time: string, displayMonth: string)

  /** The appointment's currently held slot (`slotDate`, `slotTime`). */
  datatype SlotRef = SlotRef(slotDate: string, slotTime: string)

  /** A doctor's booked labels per date key (`slots_booked`). */
  type Registry = map<string, seq<string>>

  predicate InBreak(t: int)
  {
    BreakStart <= t < BreakEnd
  }

  /**
   A working-hours string read as `split(':').map(Number)` and applied with
   `setHours(h, m, 0, 0)`: minutes after midnight, or `None` for the invalid
   date a NaN component produces.
   */
  function ParseClock(s: string): Option<int>
  {
    ClockOfParts(Split(s, ':'))
  }

  /** Hours and minutes from the pieces of a split working-hours string; a missing minutes piece is NaN. */
  function ClockOfParts(parts: seq<string>): Option<int>
    requires |parts| >= 1
  {
    var h := StringToNumber(parts[0]);
    var m := if |parts| >= 2 then StringToNumber(parts[1]) else NaN;
    if h.NaN? || m.NaN? then None else Some(Trunc(h.value) * 60 + Trunc(m.value))
  }

  /** Two digit groups read as hours and minutes. */
  lemma ClockOfDigitParts(hs: string, ms: string)
    requires |hs| >= 1 && AllDigits(hs) && |ms| >= 1 && AllDigits(ms)
    ensures ClockOfParts([hs, ms]) == Some(DigitsValue(hs) * 60 + DigitsValue(ms))
  {
    StringToNumberOfDigits(hs);
    StringToNumberOfDigits(ms);
    TruncOfNat(DigitsValue(hs));
    TruncOfNat(DigitsValue(ms));
  }

  /** Digit groups around one colon split into exactly those two groups. */
  lemma SplitClockDigits(hs: string, ms: string)
    requires AllDigits(hs) && AllDigits(ms)
    ensures Split(hs + ":" + ms, ':') == [hs, ms]
  {
    DigitsHaveNo(hs, ':');
    DigitsHaveNo(ms, ':');
    SplitJoin([hs, ms], ':');
    assert Join([hs, ms], ':') == hs + ":" + ms;
  }

  /** Two digit groups around a colon read as hours and minutes. */
  lemma ParseClockOfDigits(hs: string, ms: string)
    requires |hs| >= 1 && AllDigits(hs) && |ms| >= 1 && AllDigits(ms)
    ensures ParseClock(hs + ":" + ms) == Some(DigitsValue(hs) * 60 + DigitsValue(ms))
  {
    SplitClockDigits(hs, ms);
    ClockOfDigitParts(hs, ms);
  }

  /**
   `minutes + (15 - minutes % 15)`: the first quarter hour strictly after
   `m`. An already aligned minute moves a full 15 minutes on.
   */
  function NextQuarterAfter(m: int): (r: int)
    ensures m < r <= m + SlotMinutes
    ensures r % SlotMinutes == 0
  {
    m + (SlotMinutes - m % SlotMinutes)
  }

  /** No quarter hour lies strictly between `m` and `NextQuarterAfter(m)`. */
  lemma NextQuarterAfterIsLeast(m: int, q: int)
    requires m < q && q % SlotMinutes == 0
    ensures NextQuarterAfter(m) <= q
  {
  }

  /**
   The cursor's first position: the working-hours start, unless the day is
   today and that start is already earlier than now, in which case the next
   quarter hour after now's minute (seconds and milliseconds dropped).
   */
  function StartCursor(day: Date, dayStart: int, now: Instant): (c: int)
    requires ValidInstant(now)
    ensures day != now.date ==> c == dayStart
    ensures day == now.date && (dayStart < now.minute || (dayStart == now.minute && now.millis > 0)) ==>
              now.minute < c <= now.minute + SlotMinutes && c % SlotMinutes == 0
    ensures day == now.date && !(dayStart < now.minute || (dayStart == now.minute && now.millis > 0)) ==>
              c == dayStart
  {
    if day == now.date && (dayStart < now.minute || (dayStart == now.minute && now.millis > 0))
    then NextQuarterAfter(now.minute)
    else dayStart
  }

  /**
   The positions at which the cursor emits a candidate, starting from `c` and
   stopping at `end`: inside the working window, outside the break, rising.
   */
  function Cursors(c: int, end: int): (r: seq<int>)
    ensures forall i :: 0 <= i < |r| ==> c <= r[i] < end && !InBreak(r[i])
    decreases end - c
  {
    if c >= end then []
    else if InBreak(c) then Cursors(BreakEnd, end)
    else [c] + Cursors(c + SlotMinutes, end)
  }

  /** The walk visits its positions in strictly increasing order. */
  lemma {:induction false} CursorsRising(c: int, end: int)
    ensures forall i, j :: 0 <= i < j < |Cursors(c, end)| ==> Cursors(c, end)[i] < Cursors(c, end)[j]
    decreases end - c
  {
    if c >= end {
    } else if InBreak(c) {
      CursorsRising(BreakEnd, end);
      assert Cursors(c, end) == Cursors(BreakEnd, end);
    } else {
      var rest := Cursors(c + SlotMinutes, end);
      CursorsRising(c + SlotMinutes, end);
      var r := [c] + rest;
      assert Cursors(c, end) == r;
      forall i, j | 0 <= i < j < |r|
        ensures r[i] < r[j]
      {
        assert r[j] == rest[j - 1] && rest[j - 1] >= c + SlotMinutes;
        if i > 0 {
          assert r[i] == rest[i - 1] && rest[i - 1] < rest[j - 1];
        }
      }
    }
  }

  /** Where the cursor emits first: `c` itself, or 13:00 when `c` is inside the break. */
  function FirstPosition(c: int): int
  {
    if InBreak(c) then BreakEnd else c
  }

  /** Where the cursor emits after `x`: 15 minutes on, or 13:00 when that lands in the break. */
  function NextPosition(x: int): int
  {
    if InBreak(x + SlotMinutes) then BreakEnd else x + SlotMinutes
  }

  /**
   Where the walk begins and stops: it is empty exactly when its first
   position is already at or past `end`, it begins at `FirstPosition(c)`, and
   the position after its last one would reach `end`.
   */
  lemma {:induction false} CursorEnds(c: int, end: int)
    ensures |Cursors(c, end)| == 0 <==> FirstPosition(c) >= end
    ensures |Cursors(c, end)| > 0 ==>
              Cursors(c, end)[0] == FirstPosition(c) && NextPosition(Cursors(c, end)[|Cursors(c, end)| - 1]) >= end
    decreases end - c
  {
    if c >= end {
    } else if InBreak(c) {
      CursorEnds(BreakEnd, end);
      assert Cursors(c, end) == Cursors(BreakEnd, end);
    } else {
      var rest := Cursors(c + SlotMinutes, end);
      CursorEnds(c + SlotMinutes, end);
      assert Cursors(c, end) == [c] + rest;
      assert FirstPosition(c + SlotMinutes) == NextPosition(c);
      if |rest| > 0 {
        assert ([c] + rest)[|rest|] == rest[|rest| - 1];
      }
    }
  }

  /** Each position of the walk after the first is `NextPosition` of the one before. */
  lemma {:induction false} CursorNext(c: int, end: int)
    ensures forall i :: 0 <= i < |Cursors(c, end)| - 1 ==>
              Cursors(c, end)[i + 1] == NextPosition(Cursors(c, end)[i])
    decreases end - c
  {
    if c >= end {
    } else if InBreak(c) {
      CursorNext(BreakEnd, end);
      assert Cursors(c, end) == Cursors(BreakEnd, end);
    } else {
      var rest := Cursors(c + SlotMinutes, end);
      CursorNext(c + SlotMinutes, end);
      CursorEnds(c + SlotMinutes, end);
      var r := [c] + rest;
      assert Cursors(c, end) == r;
      forall i | 0 <= i < |r| - 1
        ensures r[i + 1] == NextPosition(r[i])
      {
        if i == 0 {
          assert r[1] == rest[0] == FirstPosition(c + SlotMinutes);
        } else {
          assert r[i] == rest[i - 1] && r[i + 1] == rest[i];
        }
      }
    }
  }

  /** The point the quarter-hour grid is counted from for a position `t`. */
  function Anchor(c: int, t: int): int
  {
    if t >= BreakEnd && c < BreakEnd then BreakEnd else c
  }

  /** `t` lies a whole number of steps after (or before) the origin `a`. */
  predicate OnGrid(a: int, t: int)
  {
    (t - a) % SlotMinutes == 0
  }

  /**
   Exactly which minutes the walk visits: those in [c, end) outside the break
   that lie a whole number of steps from `c` (before the break) or from 13:00
   (after a break the walk crossed).
   */
  lemma {:induction false} CursorMembership(c: int, end: int, t: int)
    ensures t in Cursors(c, end) <==> c <= t < end && !InBreak(t) && OnGrid(Anchor(c, t), t)
    decreases end - c
  {
    if c >= end {
    } else if InBreak(c) {
      CursorMembership(BreakEnd, end, t);
      assert Cursors(c, end) == Cursors(BreakEnd, end);
    } else {
      var rest := Cursors(c + SlotMinutes, end);
      CursorMembership(c + SlotMinutes, end, t);
      assert Cursors(c, end) == [c] + rest;
      assert t in Cursors(c, end) <==> t == c || t in rest;
      if t == c {
        assert Anchor(c, t) == c;
      } else if c < t < c + SlotMinutes {
        NotOnGridWithinStep(c, t);
      } else if c + SlotMinutes <= t && !InBreak(t) {
        AnchorStep(c, t);
      }
    }
  }

  /** Past the first step, the grid seen from `c` and from `c + 15` is the same. */
  lemma AnchorStep(c: int, t: int)
    requires !InBreak(c) && c + SlotMinutes <= t
    ensures OnGrid(Anchor(c + SlotMinutes, t), t) <==> OnGrid(Anchor(c, t), t)
  {
    if t >= BreakEnd && c < BreakEnd {
      assert Anchor(c, t) == BreakEnd;
      if c + SlotMinutes < BreakEnd {
        assert Anchor(c + SlotMinutes, t) == BreakEnd;
      } else {
        assert false;
      }
    } else {
      assert Anchor(c, t) == c && Anchor(c + SlotMinutes, t) == c + SlotMinutes;
      GridShift(c, t);
    }
  }

  /** Moving the grid origin by one step does not change which minutes are on the grid. */
  lemma GridShift(a: int, t: int)
    ensures OnGrid(a + SlotMinutes, t) <==> OnGrid(a, t)
  {
    assert t - a == (t - (a + SlotMinutes)) + SlotMinutes;
  }

  /** A minute strictly inside the first step after `c` is off the grid anchored at `c`. */
  lemma NotOnGridWithinStep(c: int, t: int)
    requires c < t < c + SlotMinutes && !InBreak(c)
    ensures !OnGrid(Anchor(c, t), t)
  {
    assert Anchor(c, t) == c;
  }

  /**
   With a quarter-aligned start no later than noon and an end no earlier than
   13:00, the walk emits the quarters before noon plus the quarters from 13:00
   up to the end.
   */
  lemma {:induction false} CursorCountAligned(c: int, end: int)
    requires c % SlotMinutes == 0 && c <= BreakStart && end >= BreakEnd
    ensures |Cursors(c, end)| == (BreakStart - c) / SlotMinutes + (end - BreakEnd + SlotMinutes - 1) / SlotMinutes
    decreases end - c
  {
    if c == BreakStart {
      CursorCountAfterBreak(BreakEnd, end);
    } else {
      CursorCountAligned(c + SlotMinutes, end);
    }
  }

  lemma {:induction false} CursorCountAfterBreak(c: int, end: int)
    requires c >= BreakEnd && c <= end
    ensures |Cursors(c, end)| == (end - c + SlotMinutes - 1) / SlotMinutes
    decreases end - c
  {
    if c < end {
      if c + SlotMinutes <= end {
        CursorCountAfterBreak(c + SlotMinutes, end);
      } else {
        assert Cursors(c + SlotMinutes, end) == [];
      }
    }
  }

  /** A default 09:00-17:00 day seen from before it starts offers 28 candidates: 12 before the break and 16 after. */
  lemma DefaultDayHasTwentyEightCandidates()
    ensures |Cursors(9 * 60, 17 * 60)| == 28
  {
    CursorCountAligned(9 * 60, 17 * 60);
  }

  /**
   The candidate slot at cursor `c`: its calendar date (the cursor may have run
   past midnight), its time label and the month abbreviation of that date.
   */
  function SlotAt(day: Date, c: int, labelOf: (int, int) -> string): (s: Slot)
    requires Valid(day)
    ensures s.at == c && Valid(s.date)
  {
    var date := ShiftDays(day, c / MinutesPerDay);
    var m := c % MinutesPerDay;
    Slot(c, date, labelOf(m / 60, m % 60), MonthNames[date.month - 1])
  }

  /** A cursor within the first 24 hours stays on the generated day. */
  lemma SlotOnItsDay(day: Date, c: int, labelOf: (int, int) -> string)
    requires Valid(day) && 0 <= c < MinutesPerDay
    ensures SlotAt(day, c, labelOf).date == day
  {
    assert c / MinutesPerDay == 0;
  }

  /**
   The availability test: a candidate stays unless its label is booked under
   its date key, and the appointment's own slot always stays.
   */
  predicate IsAvailable(s: Slot, booked: Registry, own: SlotRef)
  {
    var key := DateKey(s.date);
    !(key in booked && s.time in booked[key]) || (own.slotDate == key && own.slotTime == s.time)
  }

  /** The candidates along a walk, before the availability test. */
  function Candidates(day: Date, cursors: seq<int>, labelOf: (int, int) -> string): (r: seq<Slot>)
    requires Valid(day)
    ensures |r| == |cursors|
    ensures forall i :: 0 <= i < |r| ==> r[i] == SlotAt(day, cursors[i], labelOf)
  {
    Map(c => SlotAt(day, c, labelOf), cursors)
  }

  /** The slots offered along a walk. */
  function Offered(day: Date, cursors: seq<int>, booked: Registry, own: SlotRef,
                   labelOf: (int, int) -> string): seq<Slot>
    requires Valid(day)
  {
    Filter(s => IsAvailable(s, booked, own), Candidates(day, cursors, labelOf))
  }

  /** `generateTimeSlots(date, startTime, endTime)` with the current instant `now`. */
  function GenerateTimeSlots(day: Date, startTime: string, endTime: string, now: Instant,
                             booked: Registry, own: SlotRef, labelOf: (int, int) -> string): seq<Slot>
    requires Valid(day) && ValidInstant(now)
  {
    var dayStart := ParseClock(startTime);
    var dayEnd := ParseClock(endTime);
    if dayStart.Some? && dayEnd.Some?
    then Offered(day, Cursors(StartCursor(day, dayStart.value, now), dayEnd.value), booked, own, labelOf)
    else []
  }

  /** The walk's first candidate is offered or not, and the rest of the walk follows. */
  lemma OfferedCons(day: Date, c: int, rest: seq<int>, booked: Registry, own: SlotRef,
                    labelOf: (int, int) -> string)
    requires Valid(day)
    ensures var s := SlotAt(day, c, labelOf);
      Offered(day, [c] + rest, booked, own, labelOf) ==
        (if IsAvailable(s, booked, own) then [s] else []) + Offered(day, rest, booked, own, labelOf)
  {
    var s := SlotAt(day, c, labelOf);
    var p := x => IsAvailable(x, booked, own);
    assert Candidates(day, [c] + rest, labelOf) == [s] + Candidates(day, rest, labelOf);
    FilterAppend(p, [s], Candidates(day, rest, labelOf));
    assert [s][1..] == [];
  }

  /**
   The slots the loop still collects from `cursor` on, following the loop's
   own steps one at a time; `candidate` builds the slot at a cursor position
   and `keep` is the availability test.
   */
  function Collect(cursor: int, end: int, candidate: int -> Slot, keep: Slot -> bool): seq<Slot>
    decreases end - cursor
  {
    if cursor >= end then []
    else if InBreak(cursor) then Collect(BreakEnd, end, candidate, keep)
    else
      (if keep(candidate(cursor)) then [candidate(cursor)] else []) +
      Collect(cursor + SlotMinutes, end, candidate, keep)
  }

  /** Collecting step by step is filtering the candidates of the whole walk. */
  lemma {:induction false} CollectIsFiltered(cursor: int, end: int, candidate: int -> Slot, keep: Slot -> bool)
    ensures Collect(cursor, end, candidate, keep) == Filter(keep, Map(candidate, Cursors(cursor, end)))
    decreases end - cursor
  {
    if cursor >= end {
    } else if InBreak(cursor) {
      CollectIsFiltered(BreakEnd, end, candidate, keep);
    } else {
      var rest := Cursors(cursor + SlotMinutes, end);
      CollectIsFiltered(cursor + SlotMinutes, end, candidate, keep);
      assert Cursors(cursor, end) == [cursor] + rest;
      MapCons(candidate, cursor, rest);
      FilterCons(keep, candidate(cursor), Map(candidate, rest));
    }
  }

  /**
   The generator's `while` loop over a mutable cursor, from its first
   position to the end of working hours: it collects exactly the kept
   candidates of the walk.
   */
  method WalkLoop(first: int, end: int, candidate: int -> Slot, keep: Slot -> bool)
    returns (slots: seq<Slot>)
    ensures slots == Filter(keep, Map(candidate, Cursors(first, end)))
  {
    var cursor := first;
    slots := [];
    while cursor < end
      invariant slots + Collect(cursor, end, candidate, keep) == Collect(first, end, candidate, keep)
      decreases end - cursor
    {
      if BreakStart <= cursor < BreakEnd {
        cursor := BreakEnd;
        continue;
      }
      var s := candidate(cursor);
      var head := if keep(s) then [s] else [];
      AppendAssoc(slots, head, Collect(cursor + SlotMinutes, end, candidate, keep));
      slots := slots + head;
      cursor := cursor + SlotMinutes;
    }
    CollectIsFiltered(first, end, candidate, keep);
  }

  /**
   The loop form of the generator: read the working hours, place the cursor,
   run the loop; it computes exactly `GenerateTimeSlots`.
   */
  method GenerateTimeSlotsLoop(day: Date, startTime: string, endTime: string, now: Instant,
                               booked: Registry, own: SlotRef, labelOf: (int, int) -> string)
    returns (slots: seq<Slot>)
    requires Valid(day) && ValidInstant(now)
    ensures slots == GenerateTimeSlots(day, startTime, endTime, now, booked, own, labelOf)
  {
    var dayStart := ParseClock(startTime);
    var dayEnd := ParseClock(endTime);
    if dayStart.None? || dayEnd.None? {
      return [];
    }
    slots := WalkLoop(StartCursor(day, dayStart.value, now), dayEnd.value,
                      c => SlotAt(day, c, labelOf), s => IsAvailable(s, booked, own));
  }

  /**
   What a generated day contains: every slot sits at a cursor position of the
   walk and is the candidate there; a candidate of the walk is offered exactly
   when it passes the availability test.
   */
  lemma GeneratedSlots(day: Date, startTime: string, endTime: string, now: Instant,
                       booked: Registry, own: SlotRef, labelOf: (int, int) -> string,
                       dayStart: int, dayEnd: int)
    requires Valid(day) && ValidInstant(now)
    requires ParseClock(startTime) == Some(dayStart) && ParseClock(endTime) == Some(dayEnd)
    ensures var r := GenerateTimeSlots(day, startTime, endTime, now, booked, own, labelOf);
            var walk := Cursors(StartCursor(day, dayStart, now), dayEnd);
      (forall s :: s in r ==> s.at in walk && s == SlotAt(day, s.at, labelOf) && IsAvailable(s, booked, own)) &&
      (forall c :: c in walk ==> (SlotAt(day, c, labelOf) in r <==> IsAvailable(SlotAt(day, c, labelOf), booked, own)))
  {
    var walk := Cursors(StartCursor(day, dayStart, now), dayEnd);
    var candidate := c => SlotAt(day, c, labelOf);
    var keep := s => IsAvailable(s, booked, own);
    assert GenerateTimeSlots(day, startTime, endTime, now, booked, own, labelOf) ==
           Filter(keep, Map(candidate, walk));
    FilterMapMembers(candidate, keep, walk);
  }

  /**
   The offered slots of a day rise strictly in time, lie in the working window
   from the first cursor position to before the end, and none falls in the
   12:00-13:00 break.
   */
  lemma GeneratedSlotsOrdered(day: Date, startTime: string, endTime: string, now: Instant,
                              booked: Registry, own: SlotRef, labelOf: (int, int) -> string,
                              dayStart: int, dayEnd: int)
    requires Valid(day) && ValidInstant(now)
    requires ParseClock(startTime) == Some(dayStart) && ParseClock(endTime) == Some(dayEnd)
    ensures var r := GenerateTimeSlots(day, startTime, endTime, now, booked, own, labelOf);
      (forall i, j :: 0 <= i < j < |r| ==> r[i].at < r[j].at) &&
      (forall i :: 0 <= i < |r| ==>
         StartCursor(day, dayStart, now) <= r[i].at < dayEnd && !InBreak(r[i].at))
  {
    var first := StartCursor(day, dayStart, now);
    var walk := Cursors(first, dayEnd);
    var candidate := c => SlotAt(day, c, labelOf);
    var cands := Map(candidate, walk);
    var r := GenerateTimeSlots(day, startTime, endTime, now, booked, own, labelOf);
    assert r == Filter(s => IsAvailable(s, booked, own), cands);
    var at := (s: Slot) => s.at;
    forall i, j | 0 <= i < j < |cands|
      ensures at(cands[i]) < at(cands[j])
    {
      CursorsRising(first, dayEnd);
      assert cands[i] == SlotAt(day, walk[i], labelOf) && cands[j] == SlotAt(day, walk[j], labelOf);
    }
    SubsequenceRising(at, r, cands);
    GeneratedSlots(day, startTime, endTime, now, booked, own, labelOf, dayStart, dayEnd);
    forall i | 0 <= i < |r|
      ensures first <= r[i].at < dayEnd && !InBreak(r[i].at)
    {
      assert r[i] in r;
      CursorMembership(first, dayEnd, r[i].at);
    }
  }

  /**
   A candidate of the walk is left out exactly when its label is booked under
   its date key and it is not the appointment's own slot; in particular the
   appointment's own slot is always offered.
   */
  lemma OmittedIffBookedByOthers(day: Date, startTime: string, endTime: string, now: Instant,
                                 booked: Registry, own: SlotRef, labelOf: (int, int) -> string,
                                 dayStart: int, dayEnd: int, c: int)
    requires Valid(day) && ValidInstant(now)
    requires ParseClock(startTime) == Some(dayStart) && ParseClock(endTime) == Some(dayEnd)
    requires c in Cursors(StartCursor(day, dayStart, now), dayEnd)
    ensures var s := SlotAt(day, c, labelOf);
            var key := DateKey(s.date);
      s !in GenerateTimeSlots(day, startTime, endTime, now, booked, own, labelOf) <==>
        (key in booked && s.time in booked[key] && own != SlotRef(key, s.time))
    ensures var s := SlotAt(day, c, labelOf);
      own == SlotRef(DateKey(s.date), s.time) ==> s in GenerateTimeSlots(day, startTime, endTime, now, booked, own, labelOf)
  {
    GeneratedSlots(day, startTime, endTime, now, booked, own, labelOf, dayStart, dayEnd);
  }

  /** A single offered slot: the candidate at its own position, inside the walk's window and outside the break. */
  lemma GeneratedSlotInWindow(day: Date, startTime: string, endTime: string, now: Instant,
                              booked: Registry, own: SlotRef, labelOf: (int, int) -> string,
                              dayStart: int, dayEnd: int, s: Slot)
    requires Valid(day) && ValidInstant(now)
    requires ParseClock(startTime) == Some(dayStart) && ParseClock(endTime) == Some(dayEnd)
    requires s in GenerateTimeSlots(day, startTime, endTime, now, booked, own, labelOf)
    ensures StartCursor(day, dayStart, now) <= s.at < dayEnd && !InBreak(s.at)
    ensures s == SlotAt(day, s.at, labelOf) && IsAvailable(s, booked, own)
  {
    GeneratedSlots(day, startTime, endTime, now, booked, own, labelOf, dayStart, dayEnd);
    CursorMembership(StartCursor(day, dayStart, now), dayEnd, s.at);
  }

  /** When now is at or past the end of working hours on the current day, nothing is offered. */
  lemma NoSlotsAfterEnd(day: Date, startTime: string, endTime: string, now: Instant,
                        booked: Registry, own: SlotRef, labelOf: (int, int) -> string, dayEnd: int)
    requires Valid(day) && ValidInstant(now) && day == now.date
    requires ParseClock(endTime) == Some(dayEnd) && dayEnd <= now.minute
    ensures GenerateTimeSlots(day, startTime, endTime, now, booked, own, labelOf) == []
  {
  }

  /**
   At 11:50 on the current day the cursor rounds up to 12:00, which is in
   the break, so the first candidate of a 09:00-17:00 day is 13:00.
   */
  lemma LateMorningSkipsToAfterBreak(now: Instant)
    requires ValidInstant(now) && now.minute == 11 * 60 + 50
    ensures StartCursor(now.date, 9 * 60, now) == BreakStart
    ensures var walk := Cursors(StartCursor(now.date, 9 * 60, now), 17 * 60); |walk| > 0 && walk[0] == BreakEnd
  {
    CursorEnds(BreakStart, 17 * 60);
  }

  /** A working-hours string that does not parse yields no slots at all. */
  lemma NoSlotsForInvalidHours(day: Date, startTime: string, endTime: string, now: Instant,
                               booked: Registry, own: SlotRef, labelOf: (int, int) -> string)
    requires Valid(day) && ValidInstant(now)
    requires ParseClock(startTime).None? || ParseClock(endTime).None?
    ensures GenerateTimeSlots(day, startTime, endTime, now, booked, own, labelOf) == []
  {
  }

  /**
   Time labels identify the minute of the day: `labelOf` gives different
   labels to different (hour, minute) pairs of one day.
   */
  ghost predicate LabelInjective(labelOf: (int, int) -> string)
  {
    forall h1, m1, h2, m2 ::
      (0 <= h1 < 24 && 0 <= m1 < 60 && 0 <= h2 < 24 && 0 <= m2 < 60 &&
       labelOf(h1, m1) == labelOf(h2, m2)) ==> h1 == h2 && m1 == m2
  }

  /** Two-digit zero-padded printing of a number, as the 2-digit clock fields show it. */
  function TwoDigits(n: nat): string
  {
    PadStart(NatToString(n), 2, '0')
  }

  /**
   An en-US label with two-digit fields, "hh:mm AM" or "hh:mm PM", the hour
   on the 12-hour clock (midnight and noon read 12).
   */
  function EnUsLabel(h: int, m: int): string
  {
    TwoDigits(Hour12(h)) + [':'] + TwoDigits(if m < 0 then 0 else m) + Meridiem(h)
  }

  /** The hour on the 12-hour clock for an hour 0..23 of the day. */
  function Hour12(h: int): nat
  {
    if h <= 0 then 12 else if h <= 12 then h else h - 12
  }

  /** " AM" before noon, " PM" from noon on. */
  function Meridiem(h: int): (r: string)
    ensures |r| == 3 && r[1] == (if h < 12 then 'A' else 'P')
  {
    if h < 12 then [' ', 'A', 'M'] else [' ', 'P', 'M']
  }

  /** The en-US labels name each minute of the day once. */
  lemma EnUsLabelInjective()
    ensures LabelInjective(EnUsLabel)
  {
    forall h1, m1, h2, m2 | 0 <= h1 < 24 && 0 <= m1 < 60 && 0 <= h2 < 24 && 0 <= m2 < 60 &&
                            EnUsLabel(h1, m1) == EnUsLabel(h2, m2)
      ensures h1 == h2 && m1 == m2
    {
      SameEnUsLabel(h1, m1, h2, m2);
    }
  }

  lemma SameEnUsLabel(h1: int, m1: int, h2: int, m2: int)
    requires 0 <= h1 < 24 && 0 <= m1 < 60 && 0 <= h2 < 24 && 0 <= m2 < 60
    requires EnUsLabel(h1, m1) == EnUsLabel(h2, m2)
    ensures h1 == h2 && m1 == m2
  {
    EnUsLabelFields(h1, m1);
    EnUsLabelFields(h2, m2);
    PaddedInjective(Hour12(h1), Hour12(h2));
    PaddedInjective(m1, m2);
    Hour12Injective(h1, h2);
  }

  /** The 12-hour clock hour and the half of the day give back the hour. */
  lemma Hour12Injective(h1: int, h2: int)
    requires 0 <= h1 < 24 && 0 <= h2 < 24
    requires Hour12(h1) == Hour12(h2) && (h1 < 12) == (h2 < 12)
    ensures h1 == h2
  {
  }

  /** The three fields of an en-US label sit at fixed places. */
  lemma EnUsLabelFields(h: int, m: int)
    requires 0 <= h < 24 && 0 <= m < 60
    ensures var l := EnUsLabel(h, m);
      |l| == 8 && l[..2] == TwoDigits(Hour12(h)) && l[3..5] == TwoDigits(m) && l[6] == (if h < 12 then 'A' else 'P')
  {
    TwoDigitsLength(Hour12(h));
    TwoDigitsLength(m);
    LabelPieces(TwoDigits(Hour12(h)), TwoDigits(m), Meridiem(h));
  }

  lemma TwoDigitsLength(n: nat)
    requires n < 100
    ensures |TwoDigits(n)| == 2
  {
    NatToStringLength(n);
  }

  lemma LabelPieces(a: string, b: string, c: string)
    requires |a| == 2 && |b| == 2 && |c| == 3
    ensures var l := a + [':'] + b + c;
      |l| == 8 && l[..2] == a && l[3..5] == b && l[6] == c[1]
  {
  }

  /** Two different cursor positions that land on the same calendar date get different labels. */
  lemma SlotLabelsDiffer(day: Date, a: int, b: int, labelOf: (int, int) -> string)
    requires Valid(day) && LabelInjective(labelOf) && a < b
    requires SlotAt(day, a, labelOf).date == SlotAt(day, b, labelOf).date
    ensures SlotAt(day, a, labelOf).time != SlotAt(day, b, labelOf).time
  {
    var da, db := a / MinutesPerDay, b / MinutesPerDay;
    if da < db {
      ShiftDaysMonotone(day, da, db);
      assert false;
    } else if db < da {
      ShiftDaysMonotone(day, db, da);
      assert false;
    }
    var ma, mb := a % MinutesPerDay, b % MinutesPerDay;
    assert ma != mb;
    assert ma / 60 != mb / 60 || ma % 60 != mb % 60;
  }

  /**
   Within one calendar day the offered slots carry distinct labels, so the
   label a patient picks names exactly one slot.
   */
  lemma SameDayLabelsDistinct(day: Date, startTime: string, endTime: string, now: Instant,
                              booked: Registry, own: SlotRef, labelOf: (int, int) -> string,
                              dayStart: int, dayEnd: int)
    requires Valid(day) && ValidInstant(now) && LabelInjective(labelOf)
    requires ParseClock(startTime) == Some(dayStart) && ParseClock(endTime) == Some(dayEnd)
    ensures var r := GenerateTimeSlots(day, startTime, endTime, now, booked, own, labelOf);
      forall i, j :: 0 <= i < j < |r| && r[i].date == r[j].date ==> r[i].time != r[j].time
  {
    var r := GenerateTimeSlots(day, startTime, endTime, now, booked, own, labelOf);
    GeneratedSlotsOrdered(day, startTime, endTime, now, booked, own, labelOf, dayStart, dayEnd);
    GeneratedSlots(day, startTime, endTime, now, booked, own, labelOf, dayStart, dayEnd);
    forall i, j | 0 <= i < j < |r| && r[i].date == r[j].date
      ensures r[i].time != r[j].time
    {
      assert r[i] in r && r[j] in r;
      SlotLabelsDiffer(day, r[i].at, r[j].at, labelOf);
    }
  }
}

=== FILE: week_slots.dfy ===
/**
 The reschedule page's week builder (`getAvailableSlots`): one slot list per
 day for today and the six days after it, each produced by the slot generator
 with the doctor's working hours, which default to 09:00-17:00 when unset.
 */
module WeekSlots {
  import opened Options
  import opened Seqs
  import opened JsNumbers
  import opened Calendar
  import opened SlotGenerator

  const DaysShown := 7
  const DefaultStart := "09:00"
  const DefaultEnd := "17:00"

  /** What the page knows of the doctor: working hours (either may be unset) and the booked slots. */
  datatype DoctorInfo = DoctorInfo(startTime: Option<string>, endTime: Option<string>, slotsBooked: Registry)

  /** `value || fallback` on an optional string: unset and empty values fall back. */
  function OrDefault(value: Option<string>, fallback: string): string
  {
    if value.Some? && value.value != "" then value.value else fallback
  }

  /** The generator's run for the day `i` days after today. */
  function DaySlots(now: Instant, doc: DoctorInfo, own: SlotRef, labelOf: (int, int) -> string, i: nat): seq<Slot>
    requires ValidInstant(now)
  {
    GenerateTimeSlots(ShiftDays(now.date, i), OrDefault(doc.startTime, DefaultStart),
                      OrDefault(doc.endTime, DefaultEnd), now, doc.slotsBooked, own, labelOf)
  }

  /** `getAvailableSlots`: the lists for day offsets 0..6, in order, empty lists kept in place. */
  function AvailableSlots(now: Instant, doc: DoctorInfo, own: SlotRef, labelOf: (int, int) -> string): (week: seq<seq<Slot>>)
    requires ValidInstant(now)
    ensures |week| == DaysShown
    ensures forall i :: 0 <= i < DaysShown ==> week[i] == DaySlots(now, doc, own, labelOf, i)
  {
    seq(DaysShown, i requires 0 <= i < DaysShown => DaySlots(now, doc, own, labelOf, i))
  }

  /**
   The loop form of the week builder: a `for` loop pushing each day's list,
   using the loop form of the generator.
   */
  method AvailableSlotsLoop(now: Instant, doc: DoctorInfo, own: SlotRef, labelOf: (int, int) -> string)
    returns (week: seq<seq<Slot>>)
    requires ValidInstant(now)
    ensures week == AvailableSlots(now, doc, own, labelOf)
  {
    ghost var full := AvailableSlots(now, doc, own, labelOf);
    week := [];
    var i := 0;
    while i < DaysShown
      invariant 0 <= i <= DaysShown && week == full[..i]
    {
      var timeSlots := DaySlotsLoop(now, doc, own, labelOf, i);
      TakeOneMore(full, i);
      week := week + [timeSlots];
      i := i + 1;
    }
    TakeAll(full);
  }

  /** One day's list, computed by the loop form of the generator. */
  method DaySlotsLoop(now: Instant, doc: DoctorInfo, own: SlotRef, labelOf: (int, int) -> string, i: nat)
    returns (timeSlots: seq<Slot>)
    requires ValidInstant(now)
    ensures timeSlots == DaySlots(now, doc, own, labelOf, i)
  {
    timeSlots := GenerateTimeSlotsLoop(ShiftDays(now.date, i), OrDefault(doc.startTime, DefaultStart),
                                       OrDefault(doc.endTime, DefaultEnd), now, doc.slotsBooked, own, labelOf);
  }

  /** The default opening hour reads as 09:00. */
  lemma DefaultStartParses()
    ensures ParseClock(DefaultStart) == Some(9 * 60)
  {
    assert DefaultStart == ['0', '9', ':', '0', '0'];
    assert DigitValue('0') == 0 && DigitValue('9') == 9;
    ClockDigits('0', '9', '0', '0');
  }

  /** The default closing hour reads as 17:00. */
  lemma DefaultEndParses()
    ensures ParseClock(DefaultEnd) == Some(17 * 60)
  {
    assert DefaultEnd == ['1', '7', ':', '0', '0'];
    assert DigitValue('0') == 0 && DigitValue('1') == 1 && DigitValue('7') == 7;
    ClockDigits('1', '7', '0', '0');
  }

  /** A literal "HH:MM" made of four digits reads as `HH * 60 + MM`. */
  lemma ClockDigits(h1: char, h2: char, m1: char, m2: char)
    requires IsDigit(h1) && IsDigit(h2) && IsDigit(m1) && IsDigit(m2)
    ensures ParseClock([h1, h2, ':', m1, m2]) ==
            Some((DigitValue(h1) * 10 + DigitValue(h2)) * 60 + DigitValue(m1) * 10 + DigitValue(m2))
  {
    var hs, ms := [h1, h2], [m1, m2];
    assert [h1, h2, ':', m1, m2] == hs + ":" + ms;
    TwoDigitsValue(h1, h2);
    TwoDigitsValue(m1, m2);
    ParseClockOfDigits(hs, ms);
  }

  lemma TwoDigitsValue(a: char, b: char)
    requires IsDigit(a) && IsDigit(b)
    ensures AllDigits([a, b]) && DigitsValue([a, b]) == DigitValue(a) * 10 + DigitValue(b)
  {
    assert [a, b][..1] == [a] && [a][..0] == [];
    assert DigitsValue([a]) == DigitValue(a);
  }

  /** Hours that are unset or empty read as the defaults. */
  lemma UnsetHoursUseDefaults(doc: DoctorInfo)
    requires doc.startTime.None? || doc.startTime == Some("")
    requires doc.endTime.None? || doc.endTime == Some("")
    ensures ParseClock(OrDefault(doc.startTime, DefaultStart)) == Some(9 * 60)
    ensures ParseClock(OrDefault(doc.endTime, DefaultEnd)) == Some(17 * 60)
  {
    DefaultStartParses();
    DefaultEndParses();
  }

  /**
   Only the first list depends on the time of day: on every later day the
   walk starts at the opening hour.
   */
  lemma LaterDaysStartAtOpening(now: Instant, doc: DoctorInfo, own: SlotRef, labelOf: (int, int) -> string,
                                i: nat, dayStart: int, dayEnd: int)
    requires ValidInstant(now) && 1 <= i < DaysShown
    requires ParseClock(OrDefault(doc.startTime, DefaultStart)) == Some(dayStart)
    requires ParseClock(OrDefault(doc.endTime, DefaultEnd)) == Some(dayEnd)
    ensures AvailableSlots(now, doc, own, labelOf)[i] ==
            Offered(ShiftDays(now.date, i), Cursors(dayStart, dayEnd), doc.slotsBooked, own, labelOf)
  {
    ShiftDaysOrdered(now.date, 0, i);
  }

  /**
   With unset hours and nothing booked, each of the six days after today
   offers all 28 quarter hours of 09:00-12:00 and 13:00-17:00.
   */
  lemma FreeDefaultDay(now: Instant, doc: DoctorInfo, own: SlotRef, labelOf: (int, int) -> string, i: nat)
    requires ValidInstant(now) && 1 <= i < DaysShown
    requires doc.startTime.None? || doc.startTime == Some("")
    requires doc.endTime.None? || doc.endTime == Some("")
    requires doc.slotsBooked == map[]
    ensures AvailableSlots(now, doc, own, labelOf)[i] ==
            Candidates(ShiftDays(now.date, i), Cursors(9 * 60, 17 * 60), labelOf)
    ensures |AvailableSlots(now, doc, own, labelOf)[i]| == 28
  {
    var day := ShiftDays(now.date, i);
    UnsetHoursUseDefaults(doc);
    LaterDaysStartAtOpening(now, doc, own, labelOf, i, 9 * 60, 17 * 60);
    NothingBookedKeepsAll(day, Cursors(9 * 60, 17 * 60), own, labelOf);
    DefaultDayHasTwentyEightCandidates();
  }

  /** With nothing booked every candidate is offered. */
  lemma NothingBookedKeepsAll(day: Date, cursors: seq<int>, own: SlotRef, labelOf: (int, int) -> string)
    requires Valid(day)
    ensures Offered(day, cursors, map[], own, labelOf) == Candidates(day, cursors, labelOf)
  {
    var keep := s => IsAvailable(s, map[], own);
    var cands := Candidates(day, cursors, labelOf);
    forall k | 0 <= k < |cands|
      ensures keep(cands[k])
    {
    }
    FilterAll(keep, cands);
  }

  /**
   Whatever the working hours, every slot the week offers is free for this
   appointment (not booked, or its own), lies outside the break, and is the
   candidate for its own minute of its day.
   */
  lemma WeekOffersFreeSlots(now: Instant, doc: DoctorInfo, own: SlotRef, labelOf: (int, int) -> string,
                            i: nat, s: Slot)
    requires ValidInstant(now) && i < DaysShown
    requires s in AvailableSlots(now, doc, own, labelOf)[i]
    ensures IsAvailable(s, doc.slotsBooked, own) && !InBreak(s.at)
    ensures s == SlotAt(ShiftDays(now.date, i), s.at, labelOf)
  {
    var day := ShiftDays(now.date, i);
    var startTime, endTime := OrDefault(doc.startTime, DefaultStart), OrDefault(doc.endTime, DefaultEnd);
    assert s in GenerateTimeSlots(day, startTime, endTime, now, doc.slotsBooked, own, labelOf);
    if ParseClock(startTime).None? || ParseClock(endTime).None? {
      NoSlotsForInvalidHours(day, startTime, endTime, now, doc.slotsBooked, own, labelOf);
      assert false;
    } else {
      GeneratedSlotInWindow(day, startTime, endTime, now, doc.slotsBooked, own, labelOf,
                            ParseClock(startTime).value, ParseClock(endTime).value, s);
    }
  }

  /**
   With working hours inside one day, every slot of the list at offset `i`
   falls on the date `i` days after today, and so carries that date's key.
   */
  lemma WeekSlotsOnTheirDay(now: Instant, doc: DoctorInfo, own: SlotRef, labelOf: (int, int) -> string,
                            i: nat, dayStart: int, dayEnd: int, s: Slot)
    requires ValidInstant(now) && i < DaysShown
    requires ParseClock(OrDefault(doc.startTime, DefaultStart)) == Some(dayStart) && 0 <= dayStart
    requires ParseClock(OrDefault(doc.endTime, DefaultEnd)) == Some(dayEnd) && dayEnd <= MinutesPerDay
    requires s in AvailableSlots(now, doc, own, labelOf)[i]
    ensures s.date == ShiftDays(now.date, i)
    ensures DateKey(s.date) == DateKey(ShiftDays(now.date, i))
  {
    var day := ShiftDays(now.date, i);
    assert s in DaySlots(now, doc, own, labelOf, i);
    GeneratedSlotInWindow(day, OrDefault(doc.startTime, DefaultStart), OrDefault(doc.endTime, DefaultEnd),
                          now, doc.slotsBooked, own, labelOf, dayStart, dayEnd, s);
    SlotOnItsDay(day, s.at, labelOf);
  }

  /**
   Lists at different offsets hold different days: no slot of one list
   shares its date key with a slot of another.
   */
  lemma WeekDaysDistinct(now: Instant, doc: DoctorInfo, own: SlotRef, labelOf: (int, int) -> string,
                         i: nat, j: nat, dayStart: int, dayEnd: int, s: Slot, t: Slot)
    requires ValidInstant(now) && i < j < DaysShown
    requires ParseClock(OrDefault(doc.startTime, DefaultStart)) == Some(dayStart) && 0 <= dayStart
    requires ParseClock(OrDefault(doc.endTime, DefaultEnd)) == Some(dayEnd) && dayEnd <= MinutesPerDay
    requires s in AvailableSlots(now, doc, own, labelOf)[i]
    requires t in AvailableSlots(now, doc, own, labelOf)[j]
    ensures DateKey(s.date) != DateKey(t.date)
  {
    WeekSlotsOnTheirDay(now, doc, own, labelOf, i, dayStart, dayEnd, s);
    WeekSlotsOnTheirDay(now, doc, own, labelOf, j, dayStart, dayEnd, t);
    ShiftDaysOrdered(now.date, i, j);
    DateKeyInjective(s.date, t.date);
  }
}
